=== FILE: README.md ===
# WooCommerce Restrict Categories — a Dafny model

This project models the core of a WordPress/WooCommerce plugin that
password-protects taxonomy terms (product categories, post categories, tags).
It covers how the plugin stores per-term settings, keeps the index of active
terms, gates archive pages and single items, and unlocks a term with a
password cookie. It also covers the two older single-file versions of the
plugin, which protect `product_cat` only.

Files and modules:

- `wrappers.dfy` (`Wrappers`): the `Option` type.
- `php.dfy` (`Php`): the PHP and WordPress string primitives the plugin relies on.
  These are `empty()` on strings, `trim()`, `intval()`, `absint()`, the `%d`
  conversion of `sprintf()`, integer `is_numeric()`, `sanitize_key()`, and a
  byte order on strings (the order `strcmp()` gives). The model sorts
  display names by that order; see "Left out" for where PHP differs.
- `sequences.dfy` (`Sequences`): the array functions used on id lists.
  These are `sort()` and `array_multisort()` (insertion sort under a total
  preorder), `array_unique()`, `array_filter()`, and `array_search()`
  followed by `unset()`.
- `term_meta.dfy` (`TermMeta`): per-term option names and reads, the
  save hook with its index of active terms, and `sort_user_ids()`.
- `auth.dfy` (`Auth`): the whitelists, the password cookie, the challenge
  (`password_notice()`), the password form handler (`authenticate()`), and
  the archive and single-item gates.
- `legacy.dfy` (`Legacy`): the save hook and the category gate of the two
  single-file plugins. PHP arrays there keep their keys, and that matters.
  This module also has `get_user_meta_for_term()`.

The WordPress functions the code calls are parameters of the model:

- the options table, as a map;
- `sanitize_text_field()`;
- the user-field lookup of `get_user_by()`;
- `taxonomy_exists()`, `term_exists()`, `get_term_by()` and `wp_get_post_terms()`;
- the nonce check;
- the password hasher;
- the cookie-lifetime filter;
- the clock and the hash salt.

Some properties hold only under stated assumptions about these parameters.
Such properties take the assumption as a precondition:

- `Sound`: a hash checks against the password it was made from, and is never empty.
- `Binding`: a hash checks against no other password.
- `NonceBinding`: a nonce verifies for one action only.

Where the code departs from its evidently intended behaviour (see
"Findings"), one datatype selects between the code as written and the
intended behaviour:

- `ArchiveRule`
- `TriggerRule`
- `RemovalRule`
- `ProductRule`

The entry points (`MaybeRestrictPost`, `MaybeRestrictTaxTermArchive`,
`SaveCategoryFields`, `MaybeRestrictCategory`) use the code as written. See
"Findings" below.

## Model

| member | source | states |
|---|---|---|
| `Php.Trim` | includes/class-wc-rectrict-categories-auth.php:50 | `trim()` returns a contiguous slice of the password. Everything cut off before and after it is space, tab, newline, carriage return, NUL or vertical tab, and the slice itself has none of these at either end |
| `Php.TrimUnique` | includes/class-wc-rectrict-categories-auth.php:50 | any slice that removes only trim characters from the two ends and leaves clean ends is exactly `trim()`'s result, so the contract of `Php.Trim` determines it |
| `Php.TrimIdempotent` | includes/class-wc-rectrict-categories-auth.php:50 | trimming a submitted password twice gives the same string as trimming it once |
| `Php.Decimal` | includes/class-wc-rectrict-categories-term-meta.php:299 | the `%d` rendering of a non-negative id contains only digits, with no sign and no separator |
| `Php.DecimalRoundTrip` | includes/class-wc-rectrict-categories-auth.php:52 | `absint()`, `intval()` and `is_numeric()` read back the exact id from its `%d` rendering, so the term id in the form is the one posted back |
| `Php.DecimalInjective` | includes/class-wc-rectrict-categories-term-meta.php:299 | different ids render as different decimal strings |
| `Php.DashDecimalSuffix` | includes/class-wc-rectrict-categories-auth.php:55 | a string of the form `x-<id>` determines both `x` and the id, which is what binds a nonce action to one term |
| `Php.SanitizeKey` | includes/class-wc-rectrict-categories-term-meta.php:299 | `sanitize_key()` yields only lower-case letters, digits, `_` and `-`, and is never longer than its input |
| `Php.SanitizeKeyOfKey` | includes/class-wc-rectrict-categories-auth.php:218 | a string that is already a key passes through `sanitize_key()` unchanged |
| `Php.SanitizeKeyIdempotent` | includes/class-wc-rectrict-categories-auth.php:51 | sanitizing the taxonomy the form already sanitized changes nothing |
| `Php.StrLtTransitive` | includes/class-wc-rectrict-categories-term-meta.php:280 | the byte order on strings, which the model uses to sort display names, is transitive |
| `Php.StrLtTotal` | includes/class-wc-rectrict-categories-term-meta.php:280 | any two different strings are ordered one way or the other |
| `Sequences.InsertionSortSorted` | includes/class-wc-rectrict-categories-term-meta.php:250 | sorting under any total preorder gives a sorted result |
| `Sequences.SortAsc` | includes/class-wc-rectrict-categories-term-meta.php:250 | `sort()` of an id list is an ascending permutation of it |
| `Sequences.Unique` | includes/class-wc-rectrict-categories-term-meta.php:245 | `array_unique()` removes duplicates and keeps exactly the same members |
| `Sequences.DropZeros` | includes/class-wc-rectrict-categories-term-meta.php:245 | `array_filter()` keeps exactly the non-zero ids, drawn from the input |
| `Sequences.RemoveFirst` | includes/class-wc-rectrict-categories-term-meta.php:246-247 | search-and-unset removes one occurrence of the id and nothing else |
| `Sequences.NoDupIffCounts` | includes/class-wc-rectrict-categories-term-meta.php:245 | a list has no duplicates exactly when no value occurs twice in its multiset |
| `Sequences.StrictlyAscendingUnique` | includes/class-wc-rectrict-categories-term-meta.php:250 | two strictly ascending lists with the same members are equal, so the index has one canonical form |
| `TermMeta.TermPrefix` | includes/class-wc-rectrict-categories-term-meta.php:212 | the prefix the save hook matches is the option name with an empty option part |
| `TermMeta.OptionNameHasTermPrefix` | includes/class-wc-rectrict-categories-term-meta.php:298-300 | every option name of a term extends that term's prefix by the sanitized option |
| `TermMeta.OptionNameDistinct` | includes/class-wc-rectrict-categories-term-meta.php:298-300 | within one taxonomy, equal option names mean the same `absint` term id and the same sanitized option |
| `TermMeta.IndexNameIsNoField` | includes/class-wc-rectrict-categories-term-meta.php:240 | no per-term field name can be the taxonomy's index option, so a POSTed field never overwrites the index |
| `TermMeta.GetTaxTermOption` | includes/class-wc-rectrict-categories-term-meta.php:316-320 | the read is absent exactly when the named option is absent, and otherwise returns the stored value |
| `TermMeta.ReadIndex` | includes/class-wc-rectrict-categories-term-meta.php:241 | a stored id list is read back unchanged |
| `TermMeta.Activate` | includes/class-wc-rectrict-categories-term-meta.php:243-245 | activating gives a strictly ascending index whose members are exactly the old non-zero ids plus the term, when it is non-zero |
| `TermMeta.Deactivate` | includes/class-wc-rectrict-categories-term-meta.php:246-250 | deactivating gives an ascending index holding the old ids less one occurrence of the term |
| `TermMeta.ActivateOnce` | includes/class-wc-rectrict-categories-term-meta.php:244-245 | after activation, the term is listed exactly once |
| `TermMeta.ActivateIdempotent` | includes/class-wc-rectrict-categories-term-meta.php:243-245 | activating twice equals activating once |
| `TermMeta.DeactivateRemoves` | includes/class-wc-rectrict-categories-term-meta.php:246-248 | on a duplicate-free index, deactivation leaves the term absent and the index duplicate-free |
| `TermMeta.DeactivateIdempotent` | includes/class-wc-rectrict-categories-term-meta.php:246-250 | on a duplicate-free index, deactivating twice equals deactivating once |
| `TermMeta.UpdateIndexIdempotent` | includes/class-wc-rectrict-categories-term-meta.php:239-253 | re-submitting the same `active` value leaves the index as the first submission left it |
| `TermMeta.KeyLtStrictTotal` | includes/class-wc-rectrict-categories-term-meta.php:275-280 | the sort-key order (a missing field sorts first) is irreflexive, total and transitive |
| `TermMeta.UserRowLeTotalPreorder` | includes/class-wc-rectrict-categories-term-meta.php:278-280 | the model's row order for `array_multisort()` (display names in byte order, then the user id) is a total preorder in both directions |
| `TermMeta.SortUserIds` | includes/class-wc-rectrict-categories-term-meta.php:270-283 | the result is a permutation of the user ids, ordered by the user field in byte order: ascending, or descending when the order is `DESC` |
| `TermMeta.DropEmptyStrings` | includes/class-wc-rectrict-categories-term-meta.php:227 | keeps every submitted entry that is not PHP-empty (`""` and `"0"`) as many times as it was submitted, and drops every empty one |
| `TermMeta.FieldValue` | includes/class-wc-rectrict-categories-term-meta.php:219-235 | a string is stored sanitized. The user whitelist is the `absint` of each non-empty entry, after those entries are rearranged into display-name order. Other lists store the sanitized non-empty entries in their submitted order |
| `TermMeta.WhitelistKeepsSubmitted` | includes/class-wc-rectrict-categories-term-meta.php:226-231 | every non-empty user id that was submitted for the whitelist is in the stored whitelist as its `absint` |
| `TermMeta.IdsFromSubmitted` | includes/class-wc-rectrict-categories-term-meta.php:227-231 | every stored whitelist id comes from a non-empty submitted entry |
| `TermMeta.TextsFromSubmitted` | includes/class-wc-rectrict-categories-term-meta.php:227-233 | every stored text comes from a non-empty submitted entry |
| `TermMeta.StoreFields` | includes/class-wc-rectrict-categories-term-meta.php:237-252 | written fields are stored, and every option other than those fields and the index is untouched |
| `TermMeta.SaveCustomTermFields` | includes/class-wc-rectrict-categories-term-meta.php:203-255 | an unlisted taxonomy or an empty POST changes nothing; otherwise only the term's own fields and the taxonomy index can change |
| `TermMeta.IndexNotWritten` | includes/class-wc-rectrict-categories-term-meta.php:214-217 | the prefix filter never lets a POST entry be written over the index option |
| `TermMeta.SaveWritesTermFields` | includes/class-wc-rectrict-categories-term-meta.php:214-237 | every POST entry under the term prefix is stored as its sanitized value; POST entries outside the prefix are ignored; without `active`, the index is kept |
| `TermMeta.SaveUpdatesIndex` | includes/class-wc-rectrict-categories-term-meta.php:239-253 | with `active` = `yes` the term is listed once in a strictly ascending index without zeros; otherwise one occurrence is removed and the index stays sorted |
| `TermMeta.SaveIdempotent` | includes/class-wc-rectrict-categories-term-meta.php:203-255 | saving the same form twice leaves the options as one save did, when the index starts duplicate-free |
| `TermMeta.SaveThenReadPassword` | includes/class-wc-rectrict-categories-term-meta.php:220-237 | after a save, the term's password reads back as the sanitized submitted password |
| `Auth.RoleList` | includes/class-wc-rectrict-categories-auth.php:306 | `(array)` of a stored role list is that list, and of a missing option matches no role |
| `Auth.HasWhitelistedRole` | includes/class-wc-rectrict-categories-auth.php:294-311 | true exactly when the visitor is logged in, the taxonomy and term exist, and one of the user's roles is on the term's role whitelist |
| `Auth.IsWhitelistedUser` | includes/class-wc-rectrict-categories-auth.php:325-339 | never true for an anonymous visitor or a missing term; otherwise true exactly when the user id loosely equals an entry of the term's user whitelist |
| `Auth.PresentedHash` | includes/class-wc-rectrict-categories-auth.php:181-182 | the hash comes from the cookie of that name, and only when the cookie is not PHP-empty |
| `Auth.IsValidCookie` | includes/class-wc-rectrict-categories-auth.php:271-280 | a cookie is valid exactly when a hash was presented and it checks against the stored password |
| `Auth.SetCookie` | includes/class-wc-rectrict-categories-auth.php:240-256 | the cookie carries the term's `hash` option name, path `/`, the password hash, and expires `absint` of the filtered TTL (default one hour) after now |
| `Auth.NonceActionInjective` | includes/class-wc-rectrict-categories-auth.php:220 | the nonce action determines the (sanitized taxonomy, term id) pair it was made for |
| `Auth.ChallengeFor` | includes/class-wc-rectrict-categories-auth.php:218-220 | the form's nonce action is the one `authenticate()` will rebuild from the form's own hidden fields |
| `Auth.PasswordNotice` | includes/class-wc-rectrict-categories-auth.php:180-229 | access is granted exactly when the role whitelist, user whitelist or cookie admits the visitor; otherwise the challenge shows the "incorrect" banner exactly when `wcrc-auth=incorrect` is in the query |
| `Auth.AnonymousOnlyByCookie` | includes/class-wc-rectrict-categories-auth.php:184-190 | a logged-out visitor is admitted only by a valid cookie, and always by one |
| `Auth.IncorrectFlagOnlyMarkup` | includes/class-wc-rectrict-categories-auth.php:205 | the query string changes only the banner, never whether access is granted |
| `Auth.WhitelistedRoleGranted` | includes/class-wc-rectrict-categories-auth.php:184-190 | a logged-in user holding any role on an existing term's role whitelist, whatever else that list holds, is granted by role |
| `Auth.NoticeReasonOrder` | includes/class-wc-rectrict-categories-auth.php:184-190 | the grant reason follows the order role, then user, then cookie: a whitelisted role always wins, and a whitelisted user wins over a cookie |
| `Auth.WhitelistedUserGranted` | includes/class-wc-rectrict-categories-auth.php:184-190 | a logged-in, whitelisted user is granted without needing a cookie |
| `Auth.Authenticate` | includes/class-wc-rectrict-categories-auth.php:35-97 | nothing happens unless all five fields are non-empty and the nonce verifies for the sanitized pair. Otherwise there is exactly one event and a 302 to the referer. Success happens exactly when the trimmed password equals the stored one; it sets the cookie and clears `wcrc-auth`. Failure sets no cookie and adds `wcrc-auth=incorrect`. The event carries the sanitized taxonomy, the `absint` term id and the trimmed password |
| `Auth.ChallengeFormNonceRoundTrip` | includes/class-wc-rectrict-categories-auth.php:51-55 | posting back the challenge form's hidden fields reproduces its nonce action and the sanitized taxonomy and `absint` term id |
| `Auth.CrossTermReplayRejected` | includes/class-wc-rectrict-categories-auth.php:55-57 | under nonce binding, a nonce issued for one term cannot unlock another term: the submission has no effect |
| `Auth.SanitizedPairSameOptions` | includes/class-wc-rectrict-categories-auth.php:51-59 | the sanitized pair from the form addresses the same options as the original term and taxonomy |
| `Auth.CookieRoundTrip` | includes/class-wc-rectrict-categories-auth.php:61-76 | the correct password, posted from a challenge form, fires one success event, sets one cookie under the term's hash name, and a later request carrying that cookie is granted |
| `Auth.CookieValidIffPasswordUnchanged` | includes/class-wc-rectrict-categories-auth.php:271-280 | under a sound and binding hasher, a cookie made from a password stays valid exactly while that password is the stored one |
| `Auth.BlankPasswordOpensUnsetTerm` | includes/class-wc-rectrict-categories-auth.php:39-61 | a password of one space passes the non-empty guard, trims to `""`, and matches a term that has no password set |
| `Auth.ArchiveTerm` | includes/class-wc-rectrict-categories-auth.php:109-132 | a term is gated exactly on a taxonomy, category or tag archive whose taxonomy (`category`, `post_tag` or the `taxonomy` query var) is listed, whose slug is not PHP-empty and names an existing term; that term and taxonomy are the ones gated. Under the active-only rule the term must also be active |
| `Auth.ArchiveGate` | includes/class-wc-rectrict-categories-auth.php:109-133 | no term means no effect, and a challenge always comes from the archive's term |
| `Auth.ArchiveIgnoresActive` | includes/class-wc-rectrict-categories-auth.php:109-133 | as written, the archive of any existing term of a listed taxonomy is challenged even when the term is not active, while the active-only gate lets it through |
| `Auth.ActiveArchiveRule` | includes/class-wc-rectrict-categories-auth.php:109-133 | the active-only gate opens inactive terms and agrees with the written gate on active ones |
| `Auth.RestrictedTerms` | includes/class-wc-rectrict-categories-auth.php:161-163 | the intersection holds exactly the item's non-zero terms that are in the index |
| `Auth.MinOf` | includes/class-wc-rectrict-categories-auth.php:165 | the minimum of a non-empty list is a member and below every member |
| `Auth.TriggerTerm` | includes/class-wc-rectrict-categories-auth.php:163-166 | as written, a term triggers exactly when the first-listed term is restricted; as intended, the smallest restricted term triggers whenever any term is restricted |
| `Auth.SmallestRestrictedOrderFree` | includes/class-wc-rectrict-categories-auth.php:155-166 | the intended trigger does not depend on the order in which WordPress lists the item's terms |
| `Auth.FirstListedMissesLaterTerms` | includes/class-wc-rectrict-categories-auth.php:165-166 | terms [3, 7] with 7 restricted trigger nothing as written, while the same terms in the order [7, 3] trigger 7 |
| `Auth.PostIndexName` | includes/class-wc-rectrict-categories-auth.php:162 | for a taxonomy that is already a key, the post gate reads the index under the name the save hook writes |
| `Auth.ChallengeAt` | includes/class-wc-rectrict-categories-auth.php:154-167 | a taxonomy challenges exactly when it has a triggering term whose notice is a challenge |
| `Auth.GrantAt` | includes/class-wc-rectrict-categories-auth.php:154-197 | one taxonomy fires exactly one access-granted event, carrying its gating term, exactly when the item has a gating term there and that term does not challenge |
| `Auth.PostLoop` | includes/class-wc-rectrict-categories-auth.php:154-168 | the loop fires only `wcrc_access_granted` events, each for a configured taxonomy. When no taxonomy challenges, every taxonomy that grants fires its event, in configuration order. With no taxonomies the loop has no effect |
| `Auth.FirstSomeIsFirst` | includes/class-wc-rectrict-categories-auth.php:154-168 | the first present entry exists exactly when some entry is present, and no entry before it is present |
| `Auth.PostLoopIsFirstSome` | includes/class-wc-rectrict-categories-auth.php:154-168 | the loop's challenge is the first challenge across the configured taxonomies |
| `Auth.PostLoopFirstChallenge` | includes/class-wc-rectrict-categories-auth.php:145-169 | an item is challenged exactly when some taxonomy challenges, and then by the first such taxonomy in configuration order |
| `Auth.PostGate` | includes/class-wc-rectrict-categories-auth.php:146-152 | non-singular pages and unlisted post types are never gated |
| `Auth.SingleItemSecondTermMissed` | includes/class-wc-rectrict-categories-auth.php:165-166 | as written, an item filed under terms 3 and 7, with only 7 restricted, is shown without a challenge; the intended gate challenges it |
| `Auth.IntendedPostGate` | includes/class-wc-rectrict-categories-auth.php:145-169 | the intended gate challenges a listed singular item exactly when, for one of its taxonomies, the smallest restricted term's notice challenges |
| `Legacy.NextKey` | woocommerce-restrict-categories.php:449 | `$a[]` appends under a key above every existing key, and under 0 in an empty array |
| `Legacy.Append` | woocommerce-restrict-categories.php:449 | appending adds the id at the end, under the next key |
| `Legacy.Search` | woocommerce-restrict-categories.php:451 | `array_search()` finds nothing exactly when the id is absent; otherwise it returns the key of the id's first occurrence |
| `Legacy.Unset` | woocommerce-restrict-categories.php:454 | `unset()` drops exactly the entry under that key |
| `Legacy.UniqueKeep` | woocommerce-restrict-categories.php:458 | `array_unique()` keeps no duplicate value, loses no value, and invents no entry |
| `Legacy.UniqueKeepsFirst` | woocommerce-restrict-categories.php:458 | `array_unique()` keeps the first entry of every value under its own key |
| `Legacy.FilterFalsy` | woocommerce-restrict-categories.php:458 | `array_filter()` keeps exactly the entries with non-zero values |
| `Legacy.ValuesOfEntries` | woocommerce-restrict-categories.php:458 | a value is in the array exactly when some entry holds it |
| `Legacy.TermOptionIsNotTaxOption` | woocommerce-restrict-categories.php:440-441 | a term's settings option never coincides with the taxonomy's index option |
| `Legacy.ReadIndexArray` | woocommerce-restrict-categories.php:446 | a missing index reads as `(array) false`, one falsy entry under key 0 |
| `Legacy.UpdateLegacyIndex` | woocommerce-restrict-categories.php:446-458 | the saved index never holds a zero or a duplicate value |
| `Legacy.UpdateKeepsOthers` | woocommerce-restrict-categories.php:446-458 | saving one category's settings keeps every other restricted category in the index and adds none (keys of a PHP array are unique) |
| `Legacy.SaveCategoryFieldsBy` | woocommerce-restrict-categories.php:439-462 | nothing changes unless the taxonomy is `product_cat` and the term's settings were posted. Otherwise the settings are stored as posted and the index is updated by the `active` flag, with every other option untouched |
| `Legacy.ActivateLegacy` | woocommerce-password-protected-categories.php:268-278 | an activated term is listed exactly once, with no falsy entries left |
| `Legacy.UniqueFilterMembers` | woocommerce-password-protected-categories.php:278 | unique-then-filter keeps every non-zero value and only those |
| `Legacy.UnsetOnlyHolder` | woocommerce-password-protected-categories.php:274 | in a duplicate-free array, unsetting the key that holds an id removes the id |
| `Legacy.DeactivateLegacy` | woocommerce-password-protected-categories.php:270-275 | as written, deactivation removes the term when it is found under a non-zero key and leaves it when it is found under key 0 |
| `Legacy.DeactivateFoundKey` | woocommerce-password-protected-categories.php:270-275 | testing the search result for "found" removes the term in every case |
| `Legacy.KeyZeroTermIsStuck` | woocommerce-restrict-categories.php:451-455 | a term saved at key 0 can never be deactivated as written, but is removed when the search result itself decides |
| `Legacy.FreshIndexScenario` | woocommerce-restrict-categories.php:446-458 | the first term activated on a fresh index lands at key 1 and deactivates normally |
| `Legacy.Intersect` | woocommerce-restrict-categories.php:500 | an entry is in the intersection exactly when it is a non-zero indexed category of the product, keyed by its position in the product's list |
| `Legacy.IntersectKeyZero` | woocommerce-restrict-categories.php:500-506 | key 0 of the intersection, which the gate reads, is present exactly when the first-listed category is indexed |
| `Legacy.MaybeRestrictCategoryBy` | woocommerce-restrict-categories.php:474-536 | other pages are open; a category archive is open exactly when its term is inactive or the visitor is whitelisted there; a product is open exactly when none of its categories is indexed or the visitor is whitelisted on the deciding term; were both flags set, the page is open when either check opens it |
| `Legacy.ProductIndexIsSavedIndex` | woocommerce-password-protected-categories.php:317 | the gate's hard-coded index name is the one the save hook writes for a taxonomy that is already a key |
| `Legacy.ProductWhitelistFromTermZero` | woocommerce-restrict-categories.php:506-516 | a product in categories [3, 7], with only 7 restricted and the visitor whitelisted on 7, is challenged as written; choosing the first matching category opens it |
| `Legacy.FirstMatchUsesOwnCategory` | woocommerce-password-protected-categories.php:320-326 | the intended deciding term is one of the product's own categories that is in the index |
| `Legacy.GetUserMetaForTerm` | woocommerce-restrict-categories.php:198-203 | a missing meta key reads as `""`. A stored array comes back with the same items. A numeric string comes back as its `intval`. Any other string comes back unchanged |
| `Legacy.UserMetaNumberRoundTrip` | woocommerce-restrict-categories.php:198-203 | a number stored as its decimal string reads back as that number |
| `Legacy.UserMetaKeyDistinct` | woocommerce-restrict-categories.php:199 | equal meta keys within one taxonomy mean the same `absint` term id and the same meta key |
| `Legacy.UserMetaKeyIsOptionName` | woocommerce-restrict-categories.php:199 | for key-shaped taxonomy and key, the user-meta key follows the per-term option-name scheme |

## Left out

- The admin screens, ajax user search, `admin.js` and all HTML markup are left out. Only the values a form posts are modelled.
- `wp_die()`, `exit`, `ob_start()`, redirects and `setcookie()` become returned values (`Outcome`, `Response`, `Cookie`). The request is not stopped.
- Password hashing (`wp_hash_password()` with phpass `CheckPassword()`) is a parameter. Its correctness is the stated `Sound` and `Binding` assumptions. The same holds for the nonce check (`NonceBinding`).
- `sanitize_text_field()`, `get_user_by()`, the term lookups and the `wcrc_auth_cookie_ttl` filter are parameters.
- `home_url()`, `wp_unslash()`, `remove_query_arg()` and `add_query_arg()` on the redirect are left out. The target is the posted referer, and the `wcrc-auth` argument is a separate field.
- Numeric strings use integer syntax only. Floats, exponents, hex and PHP 7 loose comparison are left out. Integers are unbounded, so `intval()` does not clamp at PHP_INT_MAX.
- TermMeta.ReadIndex: only the index read departs from PHP's `(array)` cast. A stored index that is not an id list reads as `[0]`, as `(array) false` does, while PHP casts a stored string `"s"` to `["s"]`. The role and user whitelist reads do model `(array) "s" == ["s"]`.
- `get_option()` defaults other than `false` are left out. The hooks themselves (`add_action` and its priorities) are left out too.
- The legacy challenge form is left out. It posts no field the legacy code reads, and no legacy handler checks its `wcrc_pass_nonce`.
- Auth.Authenticate: `$_POST` values are strings. A `wcrc_pass` posted as an array passes the `empty()` guard, and PHP 8 `trim()` then throws a TypeError. That error path is not modelled.
- Auth.PostIndexName: the post gate reads the index under the raw taxonomy, while the save hook uses `sanitize_key()`. The two names are proved equal only for taxonomies that are already keys, as `product_cat`, `category` and `post_tag` are.
- TermMeta.SortUserIds: display names are compared in byte order. `array_multisort()` is called without a flag, so it compares with SORT_REGULAR, which orders two numeric display names by value ("9" before "10"). That comparison is not transitive once numeric and non-numeric names mix, so it is not modelled.
- TermMeta.SortUserIds: the contract states order by the user field only. Ties between equal fields are broken by the numeric id (the secondary order of `array_multisort()`), and that order is not part of the contract.
- The single-item gate takes taxonomies in configuration order, reads only key 0 of each intersection, and offers no filter hook for the chosen term. The model does the same.

## Findings

| source | as written | input that shows it | evidently intended | confidence | as-written member | corrected member |
|---|---|---|---|---|---|---|
| includes/class-wc-rectrict-categories-auth.php:165-166 | the item is gated by `$intersect[0]`, which exists only when the first-listed term is restricted | an item in terms [3, 7] with only 7 restricted | gate the item when any of its terms is restricted | high, not executed | `Auth.SingleItemSecondTermMissed` | `Auth.IntendedPostGate` |
| includes/class-wc-rectrict-categories-auth.php:109-133 | the archive gate challenges any term of a listed taxonomy, whether or not it is active | the archive of a term whose `active` option is not `yes` | gate only active terms, as the single-item gate does through the index | medium, not executed | `Auth.ArchiveIgnoresActive` | `Auth.ActiveArchiveRule` |
| woocommerce-restrict-categories.php:451-455 | `! empty( $key )` skips a term found at key 0 | the first term saved into an empty index, then deactivated | remove the term whenever `array_search()` found it | high, not executed | `Legacy.KeyZeroTermIsStuck` | `Legacy.DeactivateFoundKey` |
| woocommerce-restrict-categories.php:506 | whitelists are read from term `absint( $intersect[0] )`, which is term 0 when the first category is unrestricted | a product in categories [3, 7], only 7 restricted, visitor whitelisted on 7 | read the whitelists of the matching category | high, not executed | `Legacy.ProductWhitelistFromTermZero` | `Legacy.FirstMatchUsesOwnCategory` |

=== FILE: auth.dfy ===
/** The front-end access gate (includes/class-wc-rectrict-categories-auth.php):
    the grant decision behind `password_notice()`, the password submission
    handled by `authenticate()`, the authentication cookie, and which term a
    taxonomy archive or a single item is gated by. WordPress collaborators
    (term lookups, nonces, the password hasher, the cookie TTL filter) are
    parameters; the clock and the hasher's salt are arguments. */
module Auth {
  import opened Wrappers
  import opened Php
  import opened TermMeta

  // ---------------------------------------------------------------------
  // Collaborators
  // ---------------------------------------------------------------------

  /** `wp_hash_password()` (with its random salt as an argument) and phpass
      `CheckPassword()`. */
  datatype Hasher = Hasher(hash: (nat, string) -> string, check: (string, string) -> bool)

  /** The hasher works: a hash of `p` checks against `p`, and is never a
      PHP-empty cookie value. */
  ghost predicate Sound(h: Hasher) {
    forall salt, p :: h.check(p, h.hash(salt, p)) && !IsEmptyString(h.hash(salt, p))
  }

  /** The cryptographic assumption that a hash of `p` checks against no other password. */
  ghost predicate Binding(h: Hasher) {
    forall salt, p, q :: p != q ==> !h.check(q, h.hash(salt, p))
  }

  /** The cryptographic assumption that a nonce verifies for one action only. */
  ghost predicate NonceBinding(verify: (string, string) -> bool) {
    forall n, a, b :: verify(n, a) && verify(n, b) ==> a == b
  }

  /** The WordPress functions the gate calls. `postTerms` is the plucked
      term-id list of `wp_get_post_terms()`, empty on none or on error. */
  datatype Wp = Wp(
    taxonomyExists: string -> bool,
    termExists: (nat, string) -> bool,
    termBySlug: (string, string) -> Option<nat>,
    postTerms: (nat, string) -> seq<nat>,
    verifyNonce: (string, string) -> bool,
    hasher: Hasher,
    cookieTtl: (int, string, nat) -> int)

  /** The current visitor: the user id when logged in, and the user's roles. */
  datatype Visitor = Visitor(user: Option<nat>, roles: seq<string>)

  /** What a page view carries: the visitor, `$_COOKIE` and `$_GET`. */
  datatype Request = Request(visitor: Visitor, cookies: map<string, string>, query: map<string, string>)

  /** The main query of a page view (`is_tax()`, `is_category()`, `is_tag()`,
      `is_singular()`, `get_post_type()`, the queried object and query vars). */
  datatype Query = Query(isTax: bool, isCategory: bool, isTag: bool, isSingular: bool,
                         postType: string, objectId: nat, vars: map<string, string>)

  // ---------------------------------------------------------------------
  // Observable results
  // ---------------------------------------------------------------------

  /** The actions fired: `wcrc_password_success`, `wcrc_password_incorrect`,
      `wcrc_access_granted`. */
  datatype Event =
    | PasswordSuccess(taxonomy: string, termId: int, pass: string)
    | PasswordIncorrect(taxonomy: string, termId: int, pass: string)
    | AccessGranted(taxonomy: string, termId: int)

  datatype Cookie = Cookie(name: string, value: string, expires: int, path: string)

  /** A `wp_safe_redirect()` to the submitted referer with `wcrc-auth`
      removed and, when `wcrcAuth` is Some, set to that value. */
  datatype Redirect = Redirect(target: string, wcrcAuth: Option<string>, status: nat)

  /** Everything `authenticate()` does: events, cookies set, redirect. */
  datatype Response = Response(events: seq<Event>, cookies: seq<Cookie>, redirect: Option<Redirect>)

  const NoEffect := Response([], [], None)

  /** The challenge form: the hidden taxonomy and term id fields, the nonce
      action, and whether the "incorrect password" banner shows. */
  datatype Challenge = Challenge(taxonomyField: string, termIdField: string, nonceAction: string, showIncorrect: bool)

  datatype Grant = ByRole | ByUser | ByCookie

  datatype Notice = Granted(reason: Grant) | Challenged(form: Challenge)

  /** The result of a gate: the events fired, and the challenge that ends
      the request with `wp_die()`, if any. */
  datatype Outcome = Outcome(events: seq<Event>, challenge: Option<Challenge>)

  // ---------------------------------------------------------------------
  // Whitelists and the cookie
  // ---------------------------------------------------------------------

  /** `(array)` of a stored role whitelist as `array_intersect()` compares it:
      ids compare as their decimal strings; `(array) false` matches no role. */
  function RoleList(v: Option<Value>): (r: seq<string>)
    ensures v.Some? && v.value.Texts? ==> r == v.value.items
    ensures v.None? ==> r == []
  {
    match v
    case None => []
    case Some(Text(s)) => [s]
    case Some(Texts(items)) => items
    case Some(Ids(ids)) => seq(|ids|, i requires 0 <= i < |ids| => Decimal(ids[i]))
  }

  /** PHP 8 `$id == $s` for an integer and a string: only a numeric string
      can equal an integer, and it compares by value. */
  predicate LooseIntEq(id: int, s: string) {
    IsNumeric(s) && IntVal(s) == id
  }

  /** `in_array($id, (array) $whitelist)` with loose comparison. */
  predicate UserListHas(v: Option<Value>, id: nat) {
    match v
    case None => id == 0
    case Some(Text(s)) => LooseIntEq(id, s)
    case Some(Texts(items)) => exists i :: 0 <= i < |items| && LooseIntEq(id, items[i])
    case Some(Ids(ids)) => id in ids
  }

  /** `has_whitelisted_role()`: false for a logged-out visitor or an unknown
      taxonomy or term; otherwise whether a role of the visitor is listed. */
  function HasWhitelistedRole(wp: Wp, options: Options, prefix: string, v: Visitor, termId: int, taxonomy: string): (r: bool)
    ensures r <==> v.user.Some? && wp.taxonomyExists(taxonomy) && wp.termExists(AbsInt(termId), taxonomy)
                   && exists role :: role in v.roles
                        && role in RoleList(GetTaxTermOption(options, prefix, termId, taxonomy, "role_whitelist"))
  {
    if v.user.None? || !wp.taxonomyExists(taxonomy) || !wp.termExists(AbsInt(termId), taxonomy) then false
    else
      var list := RoleList(GetTaxTermOption(options, prefix, termId, taxonomy, "role_whitelist"));
      exists i :: 0 <= i < |v.roles| && v.roles[i] in list
  }

  /** `is_whitelisted_user()`: the same guards, then whether the user id is listed. */
  function IsWhitelistedUser(wp: Wp, options: Options, prefix: string, v: Visitor, termId: int, taxonomy: string): (r: bool)
    ensures r ==> v.user.Some? && wp.taxonomyExists(taxonomy) && wp.termExists(AbsInt(termId), taxonomy)
    ensures v.user.Some? && wp.taxonomyExists(taxonomy) && wp.termExists(AbsInt(termId), taxonomy) ==>
              (r <==> UserListHas(GetTaxTermOption(options, prefix, termId, taxonomy, "user_whitelist"), v.user.value))
  {
    if v.user.None? || !wp.taxonomyExists(taxonomy) || !wp.termExists(AbsInt(termId), taxonomy) then false
    else UserListHas(GetTaxTermOption(options, prefix, termId, taxonomy, "user_whitelist"), v.user.value)
  }

  /** The cookie name of a term: its `hash` option name. */
  function CookieName(prefix: string, termId: int, taxonomy: string): string
  {
    OptionName(prefix, termId, taxonomy, "hash")
  }

  /** The stored password cast to string; a missing password reads as "". */
  function StoredPass(options: Options, prefix: string, termId: int, taxonomy: string): string
  {
    AsString(GetTaxTermOption(options, prefix, termId, taxonomy, "pass"))
  }

  /** The cookie value presented, or null when absent or PHP-empty. */
  function PresentedHash(req: Request, name: string): (r: Option<string>)
    ensures r.Some? ==> name in req.cookies && r.value == req.cookies[name] && !IsEmptyString(r.value)
    ensures r.None? ==> name !in req.cookies || IsEmptyString(req.cookies[name])
  {
    if name in req.cookies && !IsEmptyString(req.cookies[name]) then Some(req.cookies[name]) else None
  }

  /** `is_valid_cookie()`: phpass checks the stored password against the
      cookie; a null hash never checks. */
  function IsValidCookie(wp: Wp, options: Options, prefix: string, termId: int, taxonomy: string, hash: Option<string>): (r: bool)
    ensures r ==> hash.Some?
    ensures hash.Some? ==> (r <==> wp.hasher.check(StoredPass(options, prefix, termId, taxonomy), hash.value))
  {
    hash.Some? && wp.hasher.check(StoredPass(options, prefix, termId, taxonomy), hash.value)
  }

  /** `set_cookie()`: the hash of the password under the term's cookie name,
      expiring `absint()` of the filtered TTL (one hour by default) from now. */
  function SetCookie(wp: Wp, prefix: string, termId: nat, taxonomy: string, pass: string, now: int, salt: nat): (c: Cookie)
    ensures c.name == CookieName(prefix, termId, taxonomy) && c.path == "/"
    ensures c.value == wp.hasher.hash(salt, pass)
    ensures now <= c.expires
    ensures c.expires - now == AbsInt(wp.cookieTtl(HourInSeconds, taxonomy, termId))
  {
    Cookie(CookieName(prefix, termId, taxonomy), wp.hasher.hash(salt, pass),
           now + AbsInt(wp.cookieTtl(HourInSeconds, taxonomy, termId)), "/")
  }

  const HourInSeconds: int := 3600

  // ---------------------------------------------------------------------
  // password_notice()
  // ---------------------------------------------------------------------

  /** The nonce action bound to a (taxonomy, term) pair: `wcrc_auth_nonce-%s-%d`. */
  function NonceAction(taxonomy: string, termId: nat): string
  {
    "wcrc_auth_nonce-" + taxonomy + "-" + Decimal(termId)
  }

  /** Distinct (taxonomy, term) pairs have distinct nonce actions, even for
      taxonomies containing `-`. */
  lemma NonceActionInjective(t1: string, n1: nat, t2: string, n2: nat)
    requires NonceAction(t1, n1) == NonceAction(t2, n2)
    ensures t1 == t2 && n1 == n2
  {
    var head := "wcrc_auth_nonce-";
    assert NonceAction(t1, n1) == (head + t1) + "-" + Decimal(n1);
    assert NonceAction(t2, n2) == (head + t2) + "-" + Decimal(n2);
    DashDecimalSuffix(head + t1, head + t2, n1, n2);
    assert t1 == (head + t1)[|head|..];
    assert t2 == (head + t2)[|head|..];
  }

  /** The banner flag: `$_GET['wcrc-auth'] === 'incorrect'`. */
  predicate ShowIncorrect(req: Request) {
    "wcrc-auth" in req.query && req.query["wcrc-auth"] == "incorrect"
  }

  /** The challenge form for a term: sanitized taxonomy, `absint` term id,
      and the nonce bound to exactly that pair. */
  function ChallengeFor(termId: int, taxonomy: string, showIncorrect: bool): (c: Challenge)
    ensures c.nonceAction == NonceAction(c.taxonomyField, AbsIntStr(c.termIdField))
  {
    DecimalRoundTrip(AbsInt(termId));
    Challenge(SanitizeKey(taxonomy), Decimal(AbsInt(termId)),
              NonceAction(SanitizeKey(taxonomy), AbsInt(termId)), showIncorrect)
  }

  /** The decision part of `password_notice()`: role whitelist, else user
      whitelist, else a valid cookie grants access; otherwise the visitor is
      challenged. */
  function PasswordNotice(wp: Wp, options: Options, prefix: string, req: Request, termId: int, taxonomy: string): (n: Notice)
    ensures n.Granted? <==>
              || HasWhitelistedRole(wp, options, prefix, req.visitor, termId, taxonomy)
              || IsWhitelistedUser(wp, options, prefix, req.visitor, termId, taxonomy)
              || IsValidCookie(wp, options, prefix, termId, taxonomy, PresentedHash(req, CookieName(prefix, termId, taxonomy)))
    ensures n.Challenged? ==> n.form.showIncorrect == ShowIncorrect(req)
  {
    if HasWhitelistedRole(wp, options, prefix, req.visitor, termId, taxonomy) then Granted(ByRole)
    else if IsWhitelistedUser(wp, options, prefix, req.visitor, termId, taxonomy) then Granted(ByUser)
    else if IsValidCookie(wp, options, prefix, termId, taxonomy, PresentedHash(req, CookieName(prefix, termId, taxonomy))) then Granted(ByCookie)
    else Challenged(ChallengeFor(termId, taxonomy, ShowIncorrect(req)))
  }

  /** The grant reason follows the short-circuit order: role, then user,
      then cookie. */
  lemma NoticeReasonOrder(wp: Wp, options: Options, prefix: string, req: Request, termId: int, taxonomy: string)
    ensures var n := PasswordNotice(wp, options, prefix, req, termId, taxonomy);
            var byRole := HasWhitelistedRole(wp, options, prefix, req.visitor, termId, taxonomy);
            var byUser := IsWhitelistedUser(wp, options, prefix, req.visitor, termId, taxonomy);
            && (byRole ==> n == Granted(ByRole))
            && (!byRole && byUser ==> n == Granted(ByUser))
            && (!byRole && !byUser ==> n != Granted(ByRole) && n != Granted(ByUser))
  {
  }

  /** A notice as a gate result: a grant fires `wcrc_access_granted`. */
  function NoticeOutcome(n: Notice, termId: int, taxonomy: string): Outcome
  {
    match n
    case Granted(_) => Outcome([AccessGranted(taxonomy, termId)], None)
    case Challenged(c) => Outcome([], Some(c))
  }

  /** A logged-out visitor is granted only through the cookie. */
  lemma AnonymousOnlyByCookie(wp: Wp, options: Options, prefix: string, req: Request, termId: int, taxonomy: string)
    requires req.visitor.user.None?
    ensures var n := PasswordNotice(wp, options, prefix, req, termId, taxonomy);
            (n.Granted? ==> n.reason == ByCookie)
            && (n.Granted? <==> IsValidCookie(wp, options, prefix, termId, taxonomy, PresentedHash(req, CookieName(prefix, termId, taxonomy))))
  {
  }

  /** The `wcrc-auth` query flag changes only the banner, never the decision. */
  lemma IncorrectFlagOnlyMarkup(wp: Wp, options: Options, prefix: string, req: Request, query: map<string, string>, termId: int, taxonomy: string)
    ensures var n1 := PasswordNotice(wp, options, prefix, req, termId, taxonomy);
            var n2 := PasswordNotice(wp, options, prefix, req.(query := query), termId, taxonomy);
            && (n1.Granted? <==> n2.Granted?)
            && (n1.Granted? ==> n1 == n2)
            && (n1.Challenged? ==> n1.form.(showIncorrect := false) == n2.form.(showIncorrect := false))
  {
  }

  /** A logged-in visitor with a whitelisted role is granted by role, whatever
      cookie is presented, once the taxonomy and term exist. */
  lemma WhitelistedRoleGranted(wp: Wp, options: Options, prefix: string, req: Request, termId: int, taxonomy: string, role: string)
    requires req.visitor.user.Some? && wp.taxonomyExists(taxonomy) && wp.termExists(AbsInt(termId), taxonomy)
    requires role in req.visitor.roles
    requires role in RoleList(GetTaxTermOption(options, prefix, termId, taxonomy, "role_whitelist"))
    ensures PasswordNotice(wp, options, prefix, req, termId, taxonomy) == Granted(ByRole)
  {
    var i :| 0 <= i < |req.visitor.roles| && req.visitor.roles[i] == role;
  }

  /** A logged-in visitor whose id is in the stored user whitelist is granted,
      whatever cookie is presented. */
  lemma WhitelistedUserGranted(wp: Wp, options: Options, prefix: string, req: Request, termId: int, taxonomy: string, ids: seq<nat>)
    requires req.visitor.user.Some? && wp.taxonomyExists(taxonomy) && wp.termExists(AbsInt(termId), taxonomy)
    requires GetTaxTermOption(options, prefix, termId, taxonomy, "user_whitelist") == Some(Ids(ids))
    requires req.visitor.user.value in ids
    ensures PasswordNotice(wp, options, prefix, req, termId, taxonomy).Granted?
    ensures PasswordNotice(wp, options, prefix, req, termId, taxonomy) != Granted(ByCookie)
  {
    assert UserListHas(GetTaxTermOption(options, prefix, termId, taxonomy, "user_whitelist"), req.visitor.user.value);
    assert IsWhitelistedUser(wp, options, prefix, req.visitor, termId, taxonomy);
    NoticeReasonOrder(wp, options, prefix, req, termId, taxonomy);
  }

  // ---------------------------------------------------------------------
  // authenticate()
  // ---------------------------------------------------------------------

  /** A `$_POST` field; a missing one reads as "" (and so is PHP-empty). */
  function Field(post: map<string, string>, key: string): string
  {
    if key in post then post[key] else ""
  }

  /** The guard of `authenticate()`: none of the five fields is PHP-empty. */
  predicate FieldsPresent(post: map<string, string>) {
    && !IsEmptyString(Field(post, "wcrc_auth_nonce"))
    && !IsEmptyString(Field(post, "wcrc_pass"))
    && !IsEmptyString(Field(post, "wcrc_taxonomy"))
    && !IsEmptyString(Field(post, "wcrc_term_id"))
    && !IsEmptyString(Field(post, "_wp_http_referer"))
  }

  function SubmittedTaxonomy(post: map<string, string>): string {
    SanitizeKey(Field(post, "wcrc_taxonomy"))
  }

  function SubmittedTerm(post: map<string, string>): nat {
    AbsIntStr(Field(post, "wcrc_term_id"))
  }

  /** The nonce action `authenticate()` verifies for a submission. */
  function SubmittedAction(post: map<string, string>): string {
    NonceAction(SubmittedTaxonomy(post), SubmittedTerm(post))
  }

  /** `authenticate()`: guard, nonce, then compare the trimmed password with
      the stored one; success sets the cookie and redirects to the referer
      without `wcrc-auth`, failure redirects with `wcrc-auth=incorrect`. */
  function Authenticate(wp: Wp, options: Options, prefix: string, post: map<string, string>, now: int, salt: nat): (r: Response)
    ensures !FieldsPresent(post) ==> r == NoEffect
    ensures !wp.verifyNonce(Field(post, "wcrc_auth_nonce"), SubmittedAction(post)) ==> r == NoEffect
    ensures r != NoEffect <==> FieldsPresent(post) && wp.verifyNonce(Field(post, "wcrc_auth_nonce"), SubmittedAction(post))
    ensures r != NoEffect ==>
              && |r.events| == 1
              && r.redirect.Some? && r.redirect.value.status == 302
              && r.redirect.value.target == Field(post, "_wp_http_referer")
              && (r.events[0].PasswordSuccess? <==>
                    Trim(Field(post, "wcrc_pass")) == StoredPass(options, prefix, SubmittedTerm(post), SubmittedTaxonomy(post)))
    ensures r != NoEffect && r.events[0].PasswordSuccess? ==>
              && r.redirect.value.wcrcAuth == None
              && r.cookies == [SetCookie(wp, prefix, SubmittedTerm(post), SubmittedTaxonomy(post), Trim(Field(post, "wcrc_pass")), now, salt)]
    ensures r != NoEffect && !r.events[0].PasswordSuccess? ==>
              && r.events[0].PasswordIncorrect?
              && r.redirect.value.wcrcAuth == Some("incorrect")
              && r.cookies == []
    ensures r != NoEffect ==>
              && !r.events[0].AccessGranted?
              && r.events[0].taxonomy == SubmittedTaxonomy(post)
              && r.events[0].termId == SubmittedTerm(post)
              && r.events[0].pass == Trim(Field(post, "wcrc_pass"))
  {
    if !FieldsPresent(post) then NoEffect
    else
      var pass := Trim(Field(post, "wcrc_pass"));
      var taxonomy := SubmittedTaxonomy(post);
      var termId := SubmittedTerm(post);
      var referer := Field(post, "_wp_http_referer");
      if !wp.verifyNonce(Field(post, "wcrc_auth_nonce"), NonceAction(taxonomy, termId)) then NoEffect
      else if pass == StoredPass(options, prefix, termId, taxonomy) then
        Response([PasswordSuccess(taxonomy, termId, pass)],
                 [SetCookie(wp, prefix, termId, taxonomy, pass, now, salt)],
                 Some(Redirect(referer, None, 302)))
      else
        Response([PasswordIncorrect(taxonomy, termId, pass)], [], Some(Redirect(referer, Some("incorrect"), 302)))
  }

  /** The challenge form round trip: posting back the form's hidden fields
      makes `authenticate()` verify the very nonce action the form carries. */
  lemma ChallengeFormNonceRoundTrip(termId: int, taxonomy: string, flag: bool, post: map<string, string>)
    requires var c := ChallengeFor(termId, taxonomy, flag);
             Field(post, "wcrc_taxonomy") == c.taxonomyField && Field(post, "wcrc_term_id") == c.termIdField
    ensures SubmittedAction(post) == ChallengeFor(termId, taxonomy, flag).nonceAction
    ensures SubmittedTaxonomy(post) == SanitizeKey(taxonomy) && SubmittedTerm(post) == AbsInt(termId)
  {
    SanitizeKeyIdempotent(taxonomy);
    DecimalRoundTrip(AbsInt(termId));
  }

  /** A nonce issued for one (taxonomy, term) pair cannot be replayed against
      another: the submission has no effect. */
  lemma CrossTermReplayRejected(wp: Wp, options: Options, prefix: string, post: map<string, string>, now: int, salt: nat,
                                taxonomy: string, termId: nat)
    requires NonceBinding(wp.verifyNonce)
    requires wp.verifyNonce(Field(post, "wcrc_auth_nonce"), NonceAction(taxonomy, termId))
    requires (SubmittedTaxonomy(post), SubmittedTerm(post)) != (taxonomy, termId)
    ensures Authenticate(wp, options, prefix, post, now, salt) == NoEffect
  {
    if wp.verifyNonce(Field(post, "wcrc_auth_nonce"), SubmittedAction(post)) {
      NonceActionInjective(SubmittedTaxonomy(post), SubmittedTerm(post), taxonomy, termId);
    }
  }

  /** Reading the stored password and the cookie name through the sanitized
      pair `authenticate()` uses is reading them through the raw pair
      `password_notice()` uses. */
  lemma SanitizedPairSameOptions(prefix: string, termId: int, taxonomy: string, option: string)
    ensures OptionName(prefix, AbsInt(termId), SanitizeKey(taxonomy), option) == OptionName(prefix, termId, taxonomy, option)
  {
    SanitizeKeyIdempotent(taxonomy);
  }

  /** End to end: a visitor challenged for a term who posts the form back
      with the stored password gets a cookie, and presenting that cookie
      later (while the password is unchanged) is granted access. */
  lemma CookieRoundTrip(wp: Wp, options: Options, prefix: string, req: Request, termId: int, taxonomy: string,
                        post: map<string, string>, now: int, salt: nat, later: Request)
    requires Sound(wp.hasher)
    requires PasswordNotice(wp, options, prefix, req, termId, taxonomy).Challenged?
    requires var c := PasswordNotice(wp, options, prefix, req, termId, taxonomy).form;
             && Field(post, "wcrc_taxonomy") == c.taxonomyField && Field(post, "wcrc_term_id") == c.termIdField
             && wp.verifyNonce(Field(post, "wcrc_auth_nonce"), c.nonceAction)
    requires FieldsPresent(post)
    requires Trim(Field(post, "wcrc_pass")) == StoredPass(options, prefix, termId, taxonomy)
    requires var ck := SetCookie(wp, prefix, AbsInt(termId), SanitizeKey(taxonomy), Trim(Field(post, "wcrc_pass")), now, salt);
             ck.name in later.cookies && later.cookies[ck.name] == ck.value
    ensures var r := Authenticate(wp, options, prefix, post, now, salt);
            && r.events == [PasswordSuccess(SanitizeKey(taxonomy), AbsInt(termId), Trim(Field(post, "wcrc_pass")))]
            && r.redirect.Some? && r.redirect.value.wcrcAuth == None
            && |r.cookies| == 1 && r.cookies[0].name == CookieName(prefix, termId, taxonomy)
    ensures PasswordNotice(wp, options, prefix, later, termId, taxonomy).Granted?
  {
    ChallengeFormNonceRoundTrip(termId, taxonomy, ShowIncorrect(req), post);
    SanitizedPairSameOptions(prefix, termId, taxonomy, "pass");
    SanitizedPairSameOptions(prefix, termId, taxonomy, "hash");
    var pass := Trim(Field(post, "wcrc_pass"));
    var ck := SetCookie(wp, prefix, AbsInt(termId), SanitizeKey(taxonomy), pass, now, salt);
    assert wp.hasher.check(pass, wp.hasher.hash(salt, pass));
    assert PresentedHash(later, CookieName(prefix, termId, taxonomy)) == Some(ck.value);
  }

  /** A cookie validates exactly while the stored password is the one it was
      issued for: changing the password invalidates outstanding cookies. */
  lemma CookieValidIffPasswordUnchanged(wp: Wp, options: Options, prefix: string, termId: int, taxonomy: string, salt: nat, pass: string)
    requires Sound(wp.hasher) && Binding(wp.hasher)
    ensures IsValidCookie(wp, options, prefix, termId, taxonomy, Some(wp.hasher.hash(salt, pass)))
            <==> StoredPass(options, prefix, termId, taxonomy) == pass
  {
  }

  /** A term with no password stored accepts any all-blank submission: the
      guard sees a non-empty field, `trim()` makes it "", and "" is what the
      missing password casts to. */
  lemma BlankPasswordOpensUnsetTerm(wp: Wp, options: Options, prefix: string, post: map<string, string>, now: int, salt: nat)
    requires FieldsPresent(post) && Field(post, "wcrc_pass") == " "
    requires wp.verifyNonce(Field(post, "wcrc_auth_nonce"), SubmittedAction(post))
    requires GetTaxTermOption(options, prefix, SubmittedTerm(post), SubmittedTaxonomy(post), "pass").None?
    ensures Authenticate(wp, options, prefix, post, now, salt).events[0].PasswordSuccess?
  {
    assert Trim(" ") == "" by {
      assert IsTrimChar(' ');
      assert DropWhile(" ", IsTrimChar) == "";
    }
  }

  // ---------------------------------------------------------------------
  // Which term gates a page
  // ---------------------------------------------------------------------

  /** `get_query_var()`: a missing variable reads as "". */
  function QueryVar(q: Query, name: string): string
  {
    if name in q.vars then q.vars[name] else ""
  }

  /** How the archive gate treats the `active` flag: as written it ignores it
      (`AnyTerm`); `ActiveTermsOnly` gates only terms whose `active` is 'yes'. */
  datatype ArchiveRule = AnyTerm | ActiveTermsOnly

  predicate IsActive(options: Options, prefix: string, termId: int, taxonomy: string) {
    GetTaxTermOption(options, prefix, termId, taxonomy, "active") == Some(Text("yes"))
  }

  /** Whether the query is a taxonomy, category or tag archive. */
  predicate IsTermArchive(q: Query) {
    q.isTax || q.isCategory || q.isTag
  }

  /** The archive's taxonomy: 'category', 'post_tag', or the `taxonomy` query var. */
  function ArchiveTaxonomy(q: Query): string
  {
    if q.isCategory then "category" else if q.isTag then "post_tag" else QueryVar(q, "taxonomy")
  }

  /** The archive's term slug: `category_name`, `tag`, or the query var named
      after the taxonomy. */
  function ArchiveSlug(q: Query, taxonomy: string): string
  {
    if q.isCategory then QueryVar(q, "category_name") else if q.isTag then QueryVar(q, "tag") else QueryVar(q, taxonomy)
  }

  /** The (term, taxonomy) `maybe_restrict_tax_term_archive()` passes to
      `password_notice()`, if any. */
  function ArchiveTerm(cfg: Config, wp: Wp, options: Options, q: Query, rule: ArchiveRule): (r: Option<(nat, string)>)
    ensures r.Some? ==> IsTermArchive(q) && r.value.1 == ArchiveTaxonomy(q) && r.value.1 in cfg.taxonomies
    ensures r.Some? && q.isCategory ==> r.value.1 == "category"
    ensures r.Some? && !q.isCategory && q.isTag ==> r.value.1 == "post_tag"
    ensures r.Some? ==> !IsEmptyString(ArchiveSlug(q, r.value.1))
                        && wp.termBySlug(ArchiveSlug(q, r.value.1), r.value.1) == Some(r.value.0)
    ensures r.Some? && rule == ActiveTermsOnly ==> IsActive(options, cfg.prefix, r.value.0, r.value.1)
    ensures var taxonomy := ArchiveTaxonomy(q);
            var term := wp.termBySlug(ArchiveSlug(q, taxonomy), taxonomy);
            IsTermArchive(q) && taxonomy in cfg.taxonomies && !IsEmptyString(ArchiveSlug(q, taxonomy)) && term.Some?
            && (rule == AnyTerm || IsActive(options, cfg.prefix, term.value, taxonomy))
            ==> r == Some((term.value, taxonomy))
  {
    if !IsTermArchive(q) then None
    else
      var taxonomy := ArchiveTaxonomy(q);
      if taxonomy !in cfg.taxonomies then None
      else
        var slug := ArchiveSlug(q, taxonomy);
        if IsEmptyString(slug) then None
        else match wp.termBySlug(slug, taxonomy)
          case None => None
          case Some(t) =>
            if rule == ActiveTermsOnly && !IsActive(options, cfg.prefix, t, taxonomy) then None
            else Some((t, taxonomy))
  }

  /** `maybe_restrict_tax_term_archive()` under a given archive rule. */
  function ArchiveGate(cfg: Config, wp: Wp, options: Options, req: Request, q: Query, rule: ArchiveRule): (o: Outcome)
    ensures ArchiveTerm(cfg, wp, options, q, rule).None? ==> o == Outcome([], None)
    ensures o.challenge.Some? ==> ArchiveTerm(cfg, wp, options, q, rule).Some?
    ensures ArchiveTerm(cfg, wp, options, q, rule).Some? ==>
              var t := ArchiveTerm(cfg, wp, options, q, rule).value;
              var n := PasswordNotice(wp, options, cfg.prefix, req, t.0, t.1);
              && (n.Granted? ==> o == Outcome([AccessGranted(t.1, t.0)], None))
              && (n.Challenged? ==> o == Outcome([], Some(n.form)))
  {
    match ArchiveTerm(cfg, wp, options, q, rule)
    case None => Outcome([], None)
    case Some((t, taxonomy)) => NoticeOutcome(PasswordNotice(wp, options, cfg.prefix, req, t, taxonomy), t, taxonomy)
  }

  /** `maybe_restrict_tax_term_archive()` as written. */
  function MaybeRestrictTaxTermArchive(cfg: Config, wp: Wp, options: Options, req: Request, q: Query): Outcome
  {
    ArchiveGate(cfg, wp, options, req, q, AnyTerm)
  }

  /** The archive gate as written never consults the options for which term
      to gate: an inactive term with no whitelist match and no cookie is
      challenged all the same. */
  lemma ArchiveIgnoresActive(cfg: Config, wp: Wp, options: Options, req: Request, q: Query, t: nat, taxonomy: string)
    requires IsTermArchive(q) && taxonomy == ArchiveTaxonomy(q) && taxonomy in cfg.taxonomies
    requires !IsEmptyString(ArchiveSlug(q, taxonomy)) && wp.termBySlug(ArchiveSlug(q, taxonomy), taxonomy) == Some(t)
    requires !IsActive(options, cfg.prefix, t, taxonomy)
    requires PasswordNotice(wp, options, cfg.prefix, req, t, taxonomy).Challenged?
    ensures MaybeRestrictTaxTermArchive(cfg, wp, options, req, q).challenge.Some?
    ensures ArchiveGate(cfg, wp, options, req, q, ActiveTermsOnly) == Outcome([], None)
  {
  }

  /** With the `active` check, an inactive term's archive is open to every
      visitor, and an active term is gated exactly as the code gates it. */
  lemma ActiveArchiveRule(cfg: Config, wp: Wp, options: Options, req: Request, q: Query)
    ensures var t := ArchiveTerm(cfg, wp, options, q, AnyTerm);
            && (t.Some? && !IsActive(options, cfg.prefix, t.value.0, t.value.1) ==>
                  ArchiveGate(cfg, wp, options, req, q, ActiveTermsOnly) == Outcome([], None))
            && (t.None? || IsActive(options, cfg.prefix, t.value.0, t.value.1) ==>
                  ArchiveGate(cfg, wp, options, req, q, ActiveTermsOnly) == MaybeRestrictTaxTermArchive(cfg, wp, options, req, q))
  {
  }

  /** How a single item's terms select the gating term of one taxonomy: as
      written only the first-listed term counts (`FirstListed`); the
      intended rule takes the smallest restricted term (`SmallestRestricted`). */
  datatype TriggerRule = FirstListed | SmallestRestricted

  /** The item's non-zero terms that are in the restricted index. */
  function RestrictedTerms(terms: seq<nat>, restricted: seq<nat>): (r: seq<nat>)
    ensures forall x :: x in r <==> x in terms && x in restricted && x != 0
  {
    if terms == [] then []
    else
      assert terms == [terms[0]] + terms[1..];
      (if terms[0] != 0 && terms[0] in restricted then [terms[0]] else []) + RestrictedTerms(terms[1..], restricted)
  }

  function MinOf(s: seq<nat>): (m: nat)
    requires |s| > 0
    ensures m in s && forall x :: x in s ==> m <= x
  {
    if |s| == 1 then s[0]
    else
      assert s == [s[0]] + s[1..];
      var m := MinOf(s[1..]);
      if s[0] <= m then s[0] else m
  }

  /** The term of one taxonomy that gates a single item. As written,
      `array_intersect()` keeps the keys of the item's term list and only key
      0 is inspected. */
  function TriggerTerm(rule: TriggerRule, terms: seq<nat>, restricted: seq<nat>): (r: Option<nat>)
    ensures rule == FirstListed ==>
              (r.Some? <==> |terms| > 0 && terms[0] != 0 && terms[0] in restricted)
              && (r.Some? ==> r.value == terms[0])
    ensures rule == SmallestRestricted ==>
              (r.Some? <==> exists t :: t in terms && t in restricted && t != 0)
              && (r.Some? ==> r.value in terms && r.value in restricted && r.value != 0
                              && forall t :: t in terms && t in restricted && t != 0 ==> r.value <= t)
  {
    match rule
    case FirstListed =>
      if |terms| > 0 && terms[0] != 0 && terms[0] in restricted then Some(terms[0]) else None
    case SmallestRestricted =>
      var candidates := RestrictedTerms(terms, restricted);
      if candidates == [] then None else Some(MinOf(candidates))
  }

  /** The intended rule does not depend on the order the item's terms are listed in. */
  lemma SmallestRestrictedOrderFree(terms: seq<nat>, other: seq<nat>, restricted: seq<nat>)
    requires multiset(terms) == multiset(other)
    ensures TriggerTerm(SmallestRestricted, terms, restricted) == TriggerTerm(SmallestRestricted, other, restricted)
  {
    Sequences.PermutationMembers(terms, other);
    var a := TriggerTerm(SmallestRestricted, terms, restricted);
    var b := TriggerTerm(SmallestRestricted, other, restricted);
    if a.Some? && b.Some? {
      assert a.value <= b.value && b.value <= a.value;
    }
  }

  /** As written, an item listed under terms 3 then 7 with only 7 restricted
      is not gated, while the same item listed 7 then 3 is. */
  lemma FirstListedMissesLaterTerms()
    ensures TriggerTerm(FirstListed, [3, 7], [7]) == None
    ensures TriggerTerm(FirstListed, [7, 3], [7]) == Some(7)
    ensures TriggerTerm(SmallestRestricted, [3, 7], [7]) == Some(7)
  {
    assert 7 in [3, 7];
  }

  /** The index option the single-item gate reads: the prefix followed by
      the raw taxonomy, without `sanitize_key()`. */
  function PostIndexName(prefix: string, taxonomy: string): (r: string)
    ensures IsKey(taxonomy) ==> r == IndexName(prefix, taxonomy)
  {
    SanitizeKeyOfKeyWhen(taxonomy);
    prefix + taxonomy
  }

  lemma SanitizeKeyOfKeyWhen(s: string)
    ensures IsKey(s) ==> SanitizeKey(s) == s
  {
    if IsKey(s) {
      SanitizeKeyOfKey(s);
    }
  }

  /** The term of `taxonomy` that gates the queried item, under a rule. */
  function ItemTrigger(cfg: Config, wp: Wp, options: Options, q: Query, rule: TriggerRule, taxonomy: string): Option<nat>
  {
    TriggerTerm(rule, wp.postTerms(q.objectId, taxonomy), ReadIndex(options, PostIndexName(cfg.prefix, taxonomy)))
  }

  /** The challenge `taxonomy` raises for the item: its gating term, if any,
      and the visitor not granted for it. */
  function ChallengeAt(cfg: Config, wp: Wp, options: Options, req: Request, q: Query, rule: TriggerRule, taxonomy: string): (c: Option<Challenge>)
    ensures c.Some? <==> ItemTrigger(cfg, wp, options, q, rule, taxonomy).Some?
                         && PasswordNotice(wp, options, cfg.prefix, req, ItemTrigger(cfg, wp, options, q, rule, taxonomy).value, taxonomy).Challenged?
  {
    match ItemTrigger(cfg, wp, options, q, rule, taxonomy)
    case None => None
    case Some(t) =>
      match PasswordNotice(wp, options, cfg.prefix, req, t, taxonomy)
      case Challenged(c) => Some(c)
      case Granted(_) => None
  }

  /** The `wcrc_access_granted` event a taxonomy fires for the item: one,
      when it has a gating term and does not challenge (the visitor is
      admitted to that term). */
  function GrantAt(cfg: Config, wp: Wp, options: Options, req: Request, q: Query, rule: TriggerRule, taxonomy: string): (e: seq<Event>)
    ensures e != [] <==> ItemTrigger(cfg, wp, options, q, rule, taxonomy).Some?
                         && ChallengeAt(cfg, wp, options, req, q, rule, taxonomy).None?
    ensures e != [] ==> e == [AccessGranted(taxonomy, ItemTrigger(cfg, wp, options, q, rule, taxonomy).value)]
    ensures OnlyGrants(e, [taxonomy])
  {
    var t := ItemTrigger(cfg, wp, options, q, rule, taxonomy);
    if t.Some? && ChallengeAt(cfg, wp, options, req, q, rule, taxonomy).None? then [AccessGranted(taxonomy, t.value)] else []
  }

  /** The loop of `maybe_restrict_post()`: the configured taxonomies in list
      order; a grant fires its event and the loop goes on, a challenge ends
      the request. It fires nothing but `wcrc_access_granted`, each for a
      configured taxonomy, and never challenges with no taxonomy. */
  function PostLoop(cfg: Config, wp: Wp, options: Options, req: Request, q: Query, rule: TriggerRule, taxonomies: seq<string>): (o: Outcome)
    ensures OnlyGrants(o.events, taxonomies)
    ensures taxonomies == [] ==> o == Outcome([], None)
    ensures o.challenge.None? ==> o.events == Grants(cfg, wp, options, req, q, rule, taxonomies)
  {
    if taxonomies == [] then Outcome([], None)
    else
      var c := ChallengeAt(cfg, wp, options, req, q, rule, taxonomies[0]);
      if c.Some? then Outcome([], c)
      else
        var rest := PostLoop(cfg, wp, options, req, q, rule, taxonomies[1..]);
        var grant := GrantAt(cfg, wp, options, req, q, rule, taxonomies[0]);
        GrantsExtend(grant, rest.events, taxonomies);
        Outcome(grant + rest.events, rest.challenge)
  }

  /** The grant events of the listed taxonomies, in list order. */
  function Grants(cfg: Config, wp: Wp, options: Options, req: Request, q: Query, rule: TriggerRule, taxonomies: seq<string>): seq<Event>
  {
    if taxonomies == [] then []
    else GrantAt(cfg, wp, options, req, q, rule, taxonomies[0]) + Grants(cfg, wp, options, req, q, rule, taxonomies[1..])
  }

  /** Only grant events, each for a taxonomy of the list. */
  predicate OnlyGrants(events: seq<Event>, taxonomies: seq<string>) {
    forall i :: 0 <= i < |events| ==> events[i].AccessGranted? && events[i].taxonomy in taxonomies
  }

  lemma GrantsExtend(grant: seq<Event>, rest: seq<Event>, taxonomies: seq<string>)
    requires taxonomies != []
    requires OnlyGrants(grant, taxonomies[..1]) && OnlyGrants(rest, taxonomies[1..])
    ensures OnlyGrants(grant + rest, taxonomies)
  {
    assert taxonomies == taxonomies[..1] + taxonomies[1..];
    forall i | 0 <= i < |grant + rest| ensures (grant + rest)[i].AccessGranted? && (grant + rest)[i].taxonomy in taxonomies {
      if i < |grant| {
        assert (grant + rest)[i] == grant[i];
      } else {
        assert (grant + rest)[i] == rest[i - |grant|];
      }
    }
  }

  /** The first Some of a list, if any. */
  function FirstSome<T>(s: seq<Option<T>>): Option<T>
  {
    if s == [] then None else if s[0].Some? then s[0] else FirstSome(s[1..])
  }

  lemma {:induction false} FirstSomeIsFirst<T>(s: seq<Option<T>>)
    ensures FirstSome(s).Some? <==> exists i :: 0 <= i < |s| && s[i].Some?
    ensures FirstSome(s).Some? ==>
              exists i :: 0 <= i < |s| && FirstSome(s) == s[i] && forall j :: 0 <= j < i ==> s[j].None?
  {
    if s != [] && s[0].None? {
      FirstSomeIsFirst(s[1..]);
      if FirstSome(s).Some? {
        var k :| 0 <= k < |s[1..]| && FirstSome(s[1..]) == s[1..][k] && forall j :: 0 <= j < k ==> s[1..][j].None?;
        assert FirstSome(s) == s[k + 1];
        forall j | 0 <= j < k + 1 ensures s[j].None? {
          if j > 0 {
            assert s[j] == s[1..][j - 1];
          }
        }
      } else {
        forall i | 0 <= i < |s| ensures s[i].None? {
          if i > 0 {
            assert s[i] == s[1..][i - 1];
          }
        }
      }
    }
  }

  /** The challenge each taxonomy of the list raises for the item. */
  function Challenges(cfg: Config, wp: Wp, options: Options, req: Request, q: Query, rule: TriggerRule, taxonomies: seq<string>): (r: seq<Option<Challenge>>)
    ensures |r| == |taxonomies|
    ensures forall i :: 0 <= i < |r| ==> r[i] == ChallengeAt(cfg, wp, options, req, q, rule, taxonomies[i])
  {
    seq(|taxonomies|, i requires 0 <= i < |taxonomies| => ChallengeAt(cfg, wp, options, req, q, rule, taxonomies[i]))
  }

  lemma {:induction false} PostLoopIsFirstSome(cfg: Config, wp: Wp, options: Options, req: Request, q: Query, rule: TriggerRule, taxonomies: seq<string>)
    ensures PostLoop(cfg, wp, options, req, q, rule, taxonomies).challenge
            == FirstSome(Challenges(cfg, wp, options, req, q, rule, taxonomies))
  {
    if taxonomies != [] {
      PostLoopIsFirstSome(cfg, wp, options, req, q, rule, taxonomies[1..]);
      assert Challenges(cfg, wp, options, req, q, rule, taxonomies)[1..]
             == Challenges(cfg, wp, options, req, q, rule, taxonomies[1..]);
    }
  }

  /** The single-item loop challenges iff some taxonomy challenges, and then
      with the challenge of the first such taxonomy in list order. */
  lemma PostLoopFirstChallenge(cfg: Config, wp: Wp, options: Options, req: Request, q: Query, rule: TriggerRule, taxonomies: seq<string>)
    ensures var o := PostLoop(cfg, wp, options, req, q, rule, taxonomies);
            && (o.challenge.Some? <==> exists i :: 0 <= i < |taxonomies| && ChallengeAt(cfg, wp, options, req, q, rule, taxonomies[i]).Some?)
            && (o.challenge.Some? ==>
                  exists i :: 0 <= i < |taxonomies| && o.challenge == ChallengeAt(cfg, wp, options, req, q, rule, taxonomies[i])
                    && forall j :: 0 <= j < i ==> ChallengeAt(cfg, wp, options, req, q, rule, taxonomies[j]).None?)
  {
    PostLoopIsFirstSome(cfg, wp, options, req, q, rule, taxonomies);
    FirstSomeIsFirst(Challenges(cfg, wp, options, req, q, rule, taxonomies));
  }

  /** `maybe_restrict_post()` under a trigger rule: only singular views of a
      configured post type are gated. */
  function PostGate(cfg: Config, wp: Wp, options: Options, req: Request, q: Query, rule: TriggerRule): (o: Outcome)
    ensures !q.isSingular || q.postType !in cfg.postTypes ==> o == Outcome([], None)
  {
    if !q.isSingular || q.postType !in cfg.postTypes then Outcome([], None)
    else PostLoop(cfg, wp, options, req, q, rule, cfg.taxonomies)
  }

  /** `maybe_restrict_post()` as written. */
  function MaybeRestrictPost(cfg: Config, wp: Wp, options: Options, req: Request, q: Query): Outcome
  {
    PostGate(cfg, wp, options, req, q, FirstListed)
  }

  /** As written, an item whose first-listed term is open but whose second
      term is restricted is never challenged for it; under the intended rule
      the restricted term gates the item. */
  lemma SingleItemSecondTermMissed(cfg: Config, wp: Wp, options: Options, req: Request, q: Query, taxonomy: string)
    requires q.isSingular && q.postType in cfg.postTypes && cfg.taxonomies == [taxonomy]
    requires wp.postTerms(q.objectId, taxonomy) == [3, 7]
    requires ReadIndex(options, PostIndexName(cfg.prefix, taxonomy)) == [7]
    requires PasswordNotice(wp, options, cfg.prefix, req, 7, taxonomy).Challenged?
    ensures MaybeRestrictPost(cfg, wp, options, req, q) == Outcome([], None)
    ensures PostGate(cfg, wp, options, req, q, SmallestRestricted).challenge.Some?
  {
    FirstListedMissesLaterTerms();
    assert cfg.taxonomies[1..] == [];
    assert ItemTrigger(cfg, wp, options, q, FirstListed, taxonomy) == None;
    assert ItemTrigger(cfg, wp, options, q, SmallestRestricted, taxonomy) == Some(7);
  }

  /** Under the intended rule, an item is challenged iff some configured
      taxonomy's smallest restricted term of the item is one whose notice
      challenges the visitor. */
  lemma IntendedPostGate(cfg: Config, wp: Wp, options: Options, req: Request, q: Query)
    requires q.isSingular && q.postType in cfg.postTypes
    ensures PostGate(cfg, wp, options, req, q, SmallestRestricted).challenge.Some?
            <==> exists i :: 0 <= i < |cfg.taxonomies| && ChallengeAt(cfg, wp, options, req, q, SmallestRestricted, cfg.taxonomies[i]).Some?
  {
    PostLoopFirstChallenge(cfg, wp, options, req, q, SmallestRestricted, cfg.taxonomies);
  }
}

=== FILE: legacy.dfy ===
/** The earlier generation of the gate, carried by both top-level plugin
    files (woocommerce-restrict-categories.php and
    woocommerce-password-protected-categories.php, whose gate code is the
    same): the product-category index kept as a PHP array with preserved
    keys, the category save hook, the archive and product gate, the two
    whitelist checks and the user-meta accessor. */
module Legacy {
  import opened Wrappers
  import opened Php
  import opened Sequences
  import opened TermMeta

  // ---------------------------------------------------------------------
  // PHP arrays with preserved keys
  // ---------------------------------------------------------------------

  /** One entry of a PHP list of ids; value 0 stands for `false`/0. */
  datatype Entry = Entry(key: nat, value: nat)

  /** A PHP array in insertion order. `array_filter()` and `array_unique()`
      keep keys, so the keys matter. */
  type PhpArray = seq<Entry>

  function Values(a: PhpArray): (r: seq<nat>)
    ensures |r| == |a| && forall i :: 0 <= i < |a| ==> r[i] == a[i].value
  {
    if a == [] then [] else [a[0].value] + Values(a[1..])
  }

  /** The key `$a[] = …` uses: one past the largest key, 0 for an empty array. */
  function NextKey(a: PhpArray): (k: nat)
    ensures forall i :: 0 <= i < |a| ==> a[i].key < k
    ensures a == [] ==> k == 0
  {
    if a == [] then 0
    else
      var k := NextKey(a[1..]);
      if a[0].key + 1 > k then a[0].key + 1 else k
  }

  /** `$a[] = $v`. */
  function Append(a: PhpArray, v: nat): (r: PhpArray)
    ensures Values(r) == Values(a) + [v]
    ensures r[|a|].key == NextKey(a)
  {
    a + [Entry(NextKey(a), v)]
  }

  /** `array_search($v, $a)`: the key of the first entry holding `v`. */
  function Search(a: PhpArray, v: nat): (r: Option<nat>)
    ensures r.None? <==> v !in Values(a)
    ensures r.Some? ==> exists i :: 0 <= i < |a| && a[i] == Entry(r.value, v) && forall j :: 0 <= j < i ==> a[j].value != v
  {
    if a == [] then None
    else if a[0].value == v then Some(a[0].key)
    else
      var r := Search(a[1..], v);
      if r.Some? then
        var i :| 0 <= i < |a[1..]| && a[1..][i] == Entry(r.value, v) && forall j :: 0 <= j < i ==> a[1..][j].value != v;
        assert a[i + 1] == Entry(r.value, v);
        assert forall j :: 0 < j < i + 1 ==> a[j].value == a[1..][j - 1].value;
        r
      else
        assert v !in Values(a[1..]);
        assert forall j :: 0 < j < |a| ==> a[j].value == Values(a[1..])[j - 1];
        r
  }

  /** `unset($a[$k])`. */
  function Unset(a: PhpArray, k: nat): (r: PhpArray)
    ensures forall e :: e in r <==> e in a && e.key != k
    ensures multiset(Values(r)) <= multiset(Values(a))
  {
    if a == [] then []
    else
      assert a == [a[0]] + a[1..];
      var rest := Unset(a[1..], k);
      if a[0].key == k then rest
      else
        assert ([a[0]] + rest)[1..] == rest;
        [a[0]] + rest
  }

  /** `array_unique()`: keeps the first entry of every value, with its key. */
  function UniqueKeep(a: PhpArray): (r: PhpArray)
    ensures NoDup(Values(r))
    ensures forall v :: v in Values(r) <==> v in Values(a)
    ensures forall e :: e in r ==> e in a
  {
    if a == [] then []
    else
      var init := a[..|a| - 1];
      var last := a[|a| - 1];
      assert a == init + [last];
      assert Values(a) == Values(init) + [last.value];
      var u := UniqueKeep(init);
      if last.value in Values(u) then u
      else
        assert Values(u + [last]) == Values(u) + [last.value];
        u + [last]
  }

  /** `array_unique()` keeps the first entry of every value, under its own key. */
  lemma UniqueKeepsFirst(a: PhpArray)
    ensures forall i :: 0 <= i < |a| && FirstOfValue(a, i) ==> a[i] in UniqueKeep(a)
  {
    forall i | 0 <= i < |a| && FirstOfValue(a, i) ensures a[i] in UniqueKeep(a) {
      UniqueKeepsFirstAt(a, i);
    }
  }

  lemma {:induction false} UniqueKeepsFirstAt(a: PhpArray, i: nat)
    requires i < |a| && FirstOfValue(a, i)
    ensures a[i] in UniqueKeep(a)
  {
    var init := a[..|a| - 1];
    UniqueKeepStep(a);
    if i < |init| {
      assert FirstOfValue(init, i);
      UniqueKeepsFirstAt(init, i);
      assert a[i] == init[i];
    } else if a[i].value in Values(init) {
      RepeatedLastNotFirst(a);
      assert false;
    }
  }

  /** One step of `array_unique()`: the entries kept from the prefix stay,
      and the last entry is added when its value is new. */
  lemma UniqueKeepStep(a: PhpArray)
    requires a != []
    ensures forall e :: e in UniqueKeep(a[..|a| - 1]) ==> e in UniqueKeep(a)
    ensures a[|a| - 1].value !in Values(a[..|a| - 1]) ==> a[|a| - 1] in UniqueKeep(a)
  {
  }

  lemma RepeatedLastNotFirst(a: PhpArray)
    requires a != [] && a[|a| - 1].value in Values(a[..|a| - 1])
    ensures !FirstOfValue(a, |a| - 1)
  {
    var init := a[..|a| - 1];
    var j :| 0 <= j < |init| && Values(init)[j] == a[|a| - 1].value;
    assert a[j] == init[j];
  }

  /** Entry `i` holds the first occurrence of its value. */
  predicate FirstOfValue(a: PhpArray, i: nat)
    requires i < |a|
  {
    forall j :: 0 <= j < i ==> a[j].value != a[i].value
  }

  /** `array_filter()`: drops the falsy entries, keeping keys. */
  function FilterFalsy(a: PhpArray): (r: PhpArray)
    ensures forall e :: e in r <==> e in a && e.value != 0
    ensures multiset(Values(r)) <= multiset(Values(a))
  {
    if a == [] then []
    else
      assert a == [a[0]] + a[1..];
      var rest := FilterFalsy(a[1..]);
      if a[0].value == 0 then rest
      else
        assert ([a[0]] + rest)[1..] == rest;
        [a[0]] + rest
  }

  lemma ValuesOfEntries(a: PhpArray, v: nat)
    ensures v in Values(a) <==> exists e :: e in a && e.value == v
  {
    if v in Values(a) {
      var i :| 0 <= i < |a| && Values(a)[i] == v;
      assert a[i] in a;
    }
  }

  // ---------------------------------------------------------------------
  // The option store
  // ---------------------------------------------------------------------

  /** A stored option: an index array, or a term's submitted settings
      (`(array) $_POST[$term_option]`: `active`, `pass`, `role_whitelist`,
      `user_whitelist`). */
  datatype LegacyValue = Index(entries: PhpArray) | Settings(fields: map<string, PostValue>)

  type LegacyStore = map<string, LegacyValue>

  /** `sprintf('wcrc_%s', sanitize_key($taxonomy))`. */
  function TaxOption(taxonomy: string): string
  {
    "wcrc_" + SanitizeKey(taxonomy)
  }

  /** `sprintf('%s_%d', $tax_option, absint($term_id))`. */
  function TermOption(taxonomy: string, termId: int): string
  {
    TaxOption(taxonomy) + "_" + Decimal(AbsInt(termId))
  }

  lemma TermOptionIsNotTaxOption(taxonomy: string, termId: int)
    ensures TermOption(taxonomy, termId) != TaxOption(taxonomy)
  {
    assert |TermOption(taxonomy, termId)| > |TaxOption(taxonomy)|;
  }

  /** `(array) get_option($tax_option)`: absent reads as `[0 => false]`. */
  function ReadIndexArray(store: LegacyStore, name: string): (r: PhpArray)
    ensures name !in store ==> r == [Entry(0, 0)]
  {
    if name in store && store[name].Index? then store[name].entries else [Entry(0, 0)]
  }

  /** How the removal branch tests the `array_search()` result: as written
      `! empty($key)`, which also rejects key 0; intended, `false !== $key`. */
  datatype RemovalRule = NonEmptyKey | FoundKey

  /** The index after one save of the term's settings. */
  function UpdateLegacyIndex(rule: RemovalRule, values: PhpArray, termId: nat, active: bool): (r: PhpArray)
    ensures forall e :: e in r ==> e.value != 0
    ensures NoDup(Values(r))
  {
    var changed :=
      if active then Append(values, termId)
      else match Search(values, termId)
        case None => values
        case Some(k) => if rule == NonEmptyKey && k == 0 then values else Unset(values, k);
    var u := UniqueKeep(changed);
    var f := FilterFalsy(u);
    NoDupSubMultiset(Values(u), Values(f));
    f
  }

  /** `save_category_fields()` on the `edit_term` hook, under a removal rule. */
  function SaveCategoryFieldsBy(rule: RemovalRule, store: LegacyStore, termId: nat, taxonomy: string,
                                post: map<string, map<string, PostValue>>): (r: LegacyStore)
    ensures taxonomy != "product_cat" || TermOption(taxonomy, termId) !in post ==> r == store
    ensures taxonomy == "product_cat" && TermOption(taxonomy, termId) in post ==>
              && TermOption(taxonomy, termId) in r
              && r[TermOption(taxonomy, termId)] == Settings(post[TermOption(taxonomy, termId)])
              && TaxOption(taxonomy) in r
              && r[TaxOption(taxonomy)] == Index(UpdateLegacyIndex(rule, ReadIndexArray(store, TaxOption(taxonomy)), termId,
                                                                  "active" in post[TermOption(taxonomy, termId)]))
    ensures forall k :: k != TermOption(taxonomy, termId) && k != TaxOption(taxonomy) ==>
              (k in r <==> k in store) && (k in r ==> r[k] == store[k])
  {
    var taxOption := TaxOption(taxonomy);
    var termOption := TermOption(taxonomy, termId);
    if taxonomy != "product_cat" || termOption !in post then store
    else
      TermOptionIsNotTaxOption(taxonomy, termId);
      var values := ReadIndexArray(store, taxOption);
      var updated := UpdateLegacyIndex(rule, values, termId, "active" in post[termOption]);
      store[termOption := Settings(post[termOption])][taxOption := Index(updated)]
  }

  /** `save_category_fields()` as written. */
  function SaveCategoryFields(store: LegacyStore, termId: nat, taxonomy: string, post: map<string, map<string, PostValue>>): LegacyStore
  {
    SaveCategoryFieldsBy(NonEmptyKey, store, termId, taxonomy, post)
  }

  /** With `active` submitted, the index holds the term exactly once and no
      falsy entry. */
  lemma ActivateLegacy(rule: RemovalRule, values: PhpArray, termId: nat)
    requires termId > 0
    ensures var r := UpdateLegacyIndex(rule, values, termId, true);
            && multiset(Values(r))[termId] == 1
            && 0 !in Values(r)
  {
    var r := UpdateLegacyIndex(rule, values, termId, true);
    var u := UniqueKeep(Append(values, termId));
    ValuesOfEntries(u, termId);
    var e :| e in u && e.value == termId;
    assert e in r;
    ValuesOfEntries(r, termId);
    ValuesOfEntries(r, 0);
    NoDupIffCounts(Values(r));
  }

  /** `array_unique()` then `array_filter()` keep exactly the non-zero values. */
  lemma UniqueFilterMembers(a: PhpArray, v: nat)
    requires v != 0
    ensures v in Values(FilterFalsy(UniqueKeep(a))) <==> v in Values(a)
  {
    ValuesOfEntries(FilterFalsy(UniqueKeep(a)), v);
    ValuesOfEntries(UniqueKeep(a), v);
  }

  /** PHP array keys are unique. */
  predicate DistinctKeys(a: PhpArray) {
    forall i, j :: 0 <= i < j < |a| ==> a[i].key != a[j].key
  }

  /** Saving one category's settings leaves every other restricted category
      in the index, and adds none. */
  lemma UpdateKeepsOthers(rule: RemovalRule, values: PhpArray, termId: nat, active: bool, v: nat)
    requires DistinctKeys(values)
    requires v != 0 && v != termId
    ensures v in Values(UpdateLegacyIndex(rule, values, termId, active)) <==> v in Values(values)
  {
    var changed :=
      if active then Append(values, termId)
      else match Search(values, termId)
        case None => values
        case Some(k) => if rule == NonEmptyKey && k == 0 then values else Unset(values, k);
    assert UpdateLegacyIndex(rule, values, termId, active) == FilterFalsy(UniqueKeep(changed));
    UniqueFilterMembers(changed, v);
    if !active && Search(values, termId).Some? {
      var k := Search(values, termId).value;
      if !(rule == NonEmptyKey && k == 0) {
        UnsetKeepsOthers(values, termId, k, v);
      }
    }
  }

  /** In an array with unique keys, unsetting the key of an entry holding
      `termId` keeps every other value. */
  lemma UnsetKeepsOthers(values: PhpArray, termId: nat, k: nat, v: nat)
    requires DistinctKeys(values)
    requires Search(values, termId) == Some(k)
    requires v != termId
    ensures v in Values(Unset(values, k)) <==> v in Values(values)
  {
    var i :| 0 <= i < |values| && values[i] == Entry(k, termId) && forall j :: 0 <= j < i ==> values[j].value != termId;
    ValuesOfEntries(values, v);
    ValuesOfEntries(Unset(values, k), v);
    if v in Values(values) {
      var e :| e in values && e.value == v;
      var j :| 0 <= j < |values| && values[j] == e;
      assert j != i;
      assert e in Unset(values, k);
    }
  }

  /** Unsetting the key of the only entry holding `v` removes `v`. */
  lemma UnsetOnlyHolder(values: PhpArray, v: nat, k: nat, i: nat)
    requires i < |values| && values[i] == Entry(k, v)
    requires NoDup(Values(values))
    ensures v !in Values(Unset(values, k))
  {
    var removed := Unset(values, k);
    forall e | e in removed ensures e.value != v {
      var j :| 0 <= j < |values| && values[j] == e;
      if j < i {
        assert Values(values)[j] != Values(values)[i];
      } else if j > i {
        assert Values(values)[i] != Values(values)[j];
      }
    }
    ValuesOfEntries(removed, v);
  }

  /** Without `active`, a term found at a non-zero key leaves the index (when
      the index held it once); found at key 0 it stays, as written. */
  lemma DeactivateLegacy(values: PhpArray, termId: nat, k: nat)
    requires termId > 0
    requires Search(values, termId) == Some(k)
    requires NoDup(Values(values))
    ensures k != 0 ==> termId !in Values(UpdateLegacyIndex(NonEmptyKey, values, termId, false))
    ensures k == 0 ==> termId in Values(UpdateLegacyIndex(NonEmptyKey, values, termId, false))
  {
    var i :| 0 <= i < |values| && values[i] == Entry(k, termId) && termId !in Values(values)[..i];
    if k != 0 {
      UnsetOnlyHolder(values, termId, k, i);
      UniqueFilterMembers(Unset(values, k), termId);
    } else {
      UniqueFilterMembers(values, termId);
    }
  }

  /** With the intended test, deactivation always removes a term the index
      held once. */
  lemma DeactivateFoundKey(values: PhpArray, termId: nat)
    requires termId > 0
    requires NoDup(Values(values))
    ensures termId !in Values(UpdateLegacyIndex(FoundKey, values, termId, false))
  {
    match Search(values, termId)
    case None =>
      UniqueFilterMembers(values, termId);
    case Some(k) =>
      var i :| 0 <= i < |values| && values[i] == Entry(k, termId) && termId !in Values(values)[..i];
      UnsetOnlyHolder(values, termId, k, i);
      UniqueFilterMembers(Unset(values, k), termId);
  }

  /** The key-0 scenario: once every term has been removed the index is
      stored as an empty array; the next activation puts the term at key 0,
      and unticking `active` can then never remove it. */
  lemma KeyZeroTermIsStuck(termId: nat)
    requires termId > 0
    ensures var emptied := UpdateLegacyIndex(NonEmptyKey, [], termId, true);
            && emptied == [Entry(0, termId)]
            && UpdateLegacyIndex(NonEmptyKey, emptied, termId, false) == emptied
            && termId !in Values(UpdateLegacyIndex(FoundKey, emptied, termId, false))
  {
    var a := Append([], termId);
    assert a == [Entry(0, termId)];
    assert UniqueKeep(a) == a;
    assert FilterFalsy(a) == a;
    assert Search(a, termId) == Some(0);
    DeactivateFoundKey(a, termId);
  }

  /** The first activation of a term on a fresh index lands at key 1, behind
      the `false` that `(array) false` contributes; deactivating it then works. */
  lemma FreshIndexScenario(termId: nat)
    requires termId > 0
    ensures var once := UpdateLegacyIndex(NonEmptyKey, [Entry(0, 0)], termId, true);
            && once == [Entry(1, termId)]
            && UpdateLegacyIndex(NonEmptyKey, once, termId, false) == []
  {
    var a := Append([Entry(0, 0)], termId);
    assert a == [Entry(0, 0), Entry(1, termId)];
    assert UniqueKeep([Entry(0, 0)]) == [Entry(0, 0)];
    assert UniqueKeep(a) == a;
    assert FilterFalsy([Entry(1, termId)]) == [Entry(1, termId)];
    assert FilterFalsy(a) == [Entry(1, termId)];
    var once := [Entry(1, termId)];
    assert Search(once, termId) == Some(1);
    assert Unset(once, 1) == [];
  }

  // ---------------------------------------------------------------------
  // maybe_restrict_category()
  // ---------------------------------------------------------------------

  /** A settings field as a list: `isset() ? (array) $x : array()`. */
  function FieldList(fields: map<string, PostValue>, key: string): seq<string>
  {
    if key !in fields then []
    else match fields[key]
      case PText(s) => [s]
      case PList(items) => items
  }

  /** `(array) get_option('wcrc_product_cat_%d')` for a term: a missing
      option reads as `[false]`, which has none of the fields. */
  function TermSettings(store: LegacyStore, termId: nat): map<string, PostValue>
  {
    var name := "wcrc_product_cat_" + Decimal(termId);
    if name in store && store[name].Settings? then store[name].fields else map[]
  }

  /** `has_whitelisted_role()`: the visitor's roles meet the list. */
  predicate HasWhitelistedRole(roles: seq<string>, whitelist: seq<string>) {
    exists i :: 0 <= i < |roles| && roles[i] in whitelist
  }

  /** `is_whitelisted_user()`: `in_array(get_current_user_id(), $list)` with
      PHP 8 loose comparison; an anonymous visitor's id is 0. */
  predicate IsWhitelistedUser(userId: nat, whitelist: seq<string>) {
    exists i :: 0 <= i < |whitelist| && IsNumeric(whitelist[i]) && IntVal(whitelist[i]) == userId
  }

  /** A visitor: the current user id (0 when logged out) and roles. */
  datatype LegacyVisitor = LegacyVisitor(userId: nat, roles: seq<string>)

  /** Whether a term's settings let the visitor through by whitelist. */
  predicate Whitelisted(v: LegacyVisitor, fields: map<string, PostValue>) {
    HasWhitelistedRole(v.roles, FieldList(fields, "role_whitelist"))
    || IsWhitelistedUser(v.userId, FieldList(fields, "user_whitelist"))
  }

  /** The page: `is_tax('product_cat')` with the queried term, or
      `is_singular('product')` with the product's category ids. */
  datatype LegacyPage = LegacyPage(isCategoryArchive: bool, isProduct: bool, queriedId: nat, productCats: seq<nat>)

  datatype Decision = Open | Challenge

  /** Which term's whitelists decide a product: as written the entry at key
      0 of `array_intersect()` (term 0 when that key is absent); intended,
      the first matching category. */
  datatype ProductRule = KeyZero | FirstMatch

  /** `e` is a category of the item, keyed by its position counted from
      `from`, that is non-zero and in the index. */
  predicate Hit(cats: seq<nat>, index: seq<nat>, from: nat, e: Entry) {
    && from <= e.key < from + |cats| && cats[e.key - from] == e.value
    && e.value != 0 && e.value in index
  }

  /** `array_intersect($cats, $index)`: exactly the item's categories (keyed
      by position) that are in the index. */
  function Intersect(cats: seq<nat>, index: seq<nat>, from: nat): (r: PhpArray)
    ensures forall e :: e in r <==> Hit(cats, index, from, e)
    decreases |cats|
  {
    if cats == [] then []
    else
      var rest := Intersect(cats[1..], index, from + 1);
      HitShift(cats, index, from);
      if cats[0] != 0 && cats[0] in index then [Entry(from, cats[0])] + rest else rest
  }

  lemma HitShift(cats: seq<nat>, index: seq<nat>, from: nat)
    requires cats != []
    ensures forall e :: Hit(cats, index, from, e) <==>
              (e == Entry(from, cats[0]) && cats[0] != 0 && cats[0] in index) || Hit(cats[1..], index, from + 1, e)
  {
    forall e ensures Hit(cats, index, from, e) <==>
              (e == Entry(from, cats[0]) && cats[0] != 0 && cats[0] in index) || Hit(cats[1..], index, from + 1, e)
    {
      if from < e.key < from + |cats| {
        assert cats[e.key - from] == cats[1..][e.key - (from + 1)];
      }
    }
  }

  /** Key 0 of `array_intersect($cats, $index)` is present exactly when the
      first-listed category is in the index; it then comes first. */
  lemma IntersectKeyZero(cats: seq<nat>, index: seq<nat>)
    ensures var r := Intersect(cats, index, 0);
            (r != [] && r[0].key == 0) <==> (cats != [] && cats[0] != 0 && cats[0] in index)
  {
    var r := Intersect(cats, index, 0);
    if cats != [] && !(cats[0] != 0 && cats[0] in index) && r != [] {
      assert r == Intersect(cats[1..], index, 1);
      assert r[0] in r;
    }
  }

  /** The term whose whitelists decide a product with a non-empty intersection. */
  function ProductTerm(rule: ProductRule, hits: PhpArray): nat
    requires hits != []
  {
    match rule
    case FirstMatch => hits[0].value
    case KeyZero => if hits[0].key == 0 then hits[0].value else 0
  }

  /** The decision of `maybe_restrict_category()`, under a product rule. */
  function MaybeRestrictCategoryBy(rule: ProductRule, store: LegacyStore, v: LegacyVisitor, page: LegacyPage): (d: Decision)
    ensures !page.isCategoryArchive && !page.isProduct ==> d == Open
    ensures page.isCategoryArchive && !page.isProduct ==>
              (d == Open <==> var fields := TermSettings(store, page.queriedId);
                              !("active" in fields && fields["active"] == PText("yes")) || Whitelisted(v, fields))
    ensures !page.isCategoryArchive && page.isProduct ==>
              var hits := Intersect(page.productCats, Values(ReadIndexArray(store, "wcrc_product_cat")), 0);
              (d == Open <==> hits == [] || Whitelisted(v, TermSettings(store, ProductTerm(rule, hits))))
    // WordPress never sets both flags; if it did, a closed archive falls through to the product check
    ensures page.isCategoryArchive && page.isProduct ==>
              var fields := TermSettings(store, page.queriedId);
              var hits := Intersect(page.productCats, Values(ReadIndexArray(store, "wcrc_product_cat")), 0);
              (d == Open <==> !("active" in fields && fields["active"] == PText("yes")) || Whitelisted(v, fields)
                              || hits == [] || Whitelisted(v, TermSettings(store, ProductTerm(rule, hits))))
  {
    if !page.isCategoryArchive && !page.isProduct then Open
    else
      var archiveOpen :=
        page.isCategoryArchive &&
        var fields := TermSettings(store, page.queriedId);
        !("active" in fields && fields["active"] == PText("yes")) || Whitelisted(v, fields);
      if archiveOpen then Open
      else if page.isProduct then
        var hits := Intersect(page.productCats, Values(ReadIndexArray(store, "wcrc_product_cat")), 0);
        if hits == [] || Whitelisted(v, TermSettings(store, ProductTerm(rule, hits))) then Open else Challenge
      else Challenge
  }

  /** `maybe_restrict_category()` as written. */
  function MaybeRestrictCategory(store: LegacyStore, v: LegacyVisitor, page: LegacyPage): Decision
  {
    MaybeRestrictCategoryBy(KeyZero, store, v, page)
  }

  /** The product gate reads the index under the hard-coded name
      `wcrc_product_cat`; the save hook writes it under `TaxOption`, which is
      that name for every taxonomy that is already a key. */
  lemma ProductIndexIsSavedIndex(taxonomy: string)
    requires IsKey(taxonomy)
    ensures TaxOption(taxonomy) == "wcrc_" + taxonomy
  {
    SanitizeKeyOfKey(taxonomy);
  }

  /** As written, a product whose restricted category is not its first-listed
      one is decided by term 0's settings: a visitor whitelisted on that very
      category is challenged. Under the intended rule the visitor passes. */
  lemma ProductWhitelistFromTermZero(store: LegacyStore, v: LegacyVisitor, page: LegacyPage)
    requires !page.isCategoryArchive && page.isProduct
    requires page.productCats == [3, 7]
    requires Values(ReadIndexArray(store, "wcrc_product_cat")) == [7]
    requires !Whitelisted(v, TermSettings(store, 0))
    requires Whitelisted(v, TermSettings(store, 7))
    ensures MaybeRestrictCategory(store, v, page) == Challenge
    ensures MaybeRestrictCategoryBy(FirstMatch, store, v, page) == Open
  {
    var hits := Intersect([3, 7], [7], 0);
    assert Intersect([7], [7], 1) == [Entry(1, 7)];
    assert hits == [Entry(1, 7)];
  }

  /** Under the intended rule a product is decided by one of its own
      restricted categories. */
  lemma FirstMatchUsesOwnCategory(store: LegacyStore, page: LegacyPage)
    requires Intersect(page.productCats, Values(ReadIndexArray(store, "wcrc_product_cat")), 0) != []
    ensures var hits := Intersect(page.productCats, Values(ReadIndexArray(store, "wcrc_product_cat")), 0);
            var t := ProductTerm(FirstMatch, hits);
            t != 0 && t in page.productCats && t in Values(ReadIndexArray(store, "wcrc_product_cat"))
  {
    var hits := Intersect(page.productCats, Values(ReadIndexArray(store, "wcrc_product_cat")), 0);
    assert hits[0] in hits;
  }

  // ---------------------------------------------------------------------
  // get_user_meta_for_term()
  // ---------------------------------------------------------------------

  /** `sprintf('wcrc_%s_%d-', $taxonomy, absint($term_id)) . $meta_key`; the
      taxonomy is not sanitized here. */
  function UserMetaKey(taxonomy: string, termId: int, metaKey: string): string
  {
    "wcrc_" + taxonomy + "_" + Decimal(AbsInt(termId)) + "-" + metaKey
  }

  /** A stored user-meta value: an array, or a string (`""` when absent). */
  datatype MetaValue = MArray(items: seq<string>) | MString(s: string)

  datatype MetaResult = RArray(items: seq<string>) | RInt(i: int) | RString(s: string)

  /** The coercion of `get_user_meta_for_term()`: arrays as-is, numeric
      strings through `intval()`, everything else as a string. */
  function GetUserMetaForTerm(meta: map<string, MetaValue>, taxonomy: string, termId: int, metaKey: string): (r: MetaResult)
    ensures UserMetaKey(taxonomy, termId, metaKey) !in meta ==> r == RString("")
    ensures UserMetaKey(taxonomy, termId, metaKey) in meta ==>
              var m := meta[UserMetaKey(taxonomy, termId, metaKey)];
              && (m.MArray? ==> r == RArray(m.items))
              && (m.MString? && IsNumeric(m.s) ==> r == RInt(IntVal(m.s)))
              && (m.MString? && !IsNumeric(m.s) ==> r == RString(m.s))
    ensures r.RArray? <==> UserMetaKey(taxonomy, termId, metaKey) in meta && meta[UserMetaKey(taxonomy, termId, metaKey)].MArray?
    ensures r.RInt? ==> var m := meta[UserMetaKey(taxonomy, termId, metaKey)];
                        m.MString? && IsNumeric(m.s) && r.i == IntVal(m.s)
  {
    var key := UserMetaKey(taxonomy, termId, metaKey);
    var value := if key in meta then meta[key] else MString("");
    match value
    case MArray(items) => RArray(items)
    case MString(s) => if IsNumeric(s) then RInt(IntVal(s)) else RString(s)
  }

  /** A non-negative number stored as its decimal string reads back as that number. */
  lemma UserMetaNumberRoundTrip(meta: map<string, MetaValue>, taxonomy: string, termId: int, metaKey: string, n: nat)
    requires UserMetaKey(taxonomy, termId, metaKey) in meta
    requires meta[UserMetaKey(taxonomy, termId, metaKey)] == MString(Decimal(n))
    ensures GetUserMetaForTerm(meta, taxonomy, termId, metaKey) == RInt(n)
  {
    DecimalRoundTrip(n);
  }

  /** For one taxonomy, meta keys of different terms or keys never collide. */
  lemma UserMetaKeyDistinct(taxonomy: string, t1: int, t2: int, k1: string, k2: string)
    requires UserMetaKey(taxonomy, t1, k1) == UserMetaKey(taxonomy, t2, k2)
    ensures AbsInt(t1) == AbsInt(t2) && k1 == k2
  {
    var head := "wcrc_" + taxonomy + "_";
    var s := UserMetaKey(taxonomy, t1, k1);
    assert s == head + (Decimal(AbsInt(t1)) + "-" + k1);
    assert s == head + (Decimal(AbsInt(t2)) + "-" + k2);
    assert s[|head|..] == Decimal(AbsInt(t1)) + "-" + k1;
    assert s[|head|..] == Decimal(AbsInt(t2)) + "-" + k2;
    DashTerminatedDecimal(AbsInt(t1), AbsInt(t2), k1, k2);
  }

  /** The legacy meta key follows the same scheme as the per-term option
      names of the newer engine with the `wcrc_` prefix, for sanitized
      taxonomy and key. */
  lemma UserMetaKeyIsOptionName(taxonomy: string, termId: int, metaKey: string)
    requires IsKey(taxonomy) && IsKey(metaKey)
    ensures UserMetaKey(taxonomy, termId, metaKey) == OptionName("wcrc_", termId, taxonomy, metaKey)
  {
    SanitizeKeyOfKey(taxonomy);
    SanitizeKeyOfKey(metaKey);
  }
}

=== FILE: php.dfy ===
/** The PHP and WordPress string primitives the access gate is built from:
    `empty()` on strings, `trim()`, `(int)` casts and `absint()`, `%d`
    rendering, `is_numeric()`, `sanitize_key()` and byte ordering of strings.
    Strings are sequences of characters; no encoding is modelled. */
module Php {

  /** PHP's `empty()` on a string value: true exactly for "" and "0". */
  predicate IsEmptyString(s: string) {
    s == "" || s == "0"
  }

  /** Drops the longest prefix whose characters all satisfy `p`. */
  function DropWhile(s: string, p: char -> bool): (r: string)
    ensures |r| <= |s| && r == s[|s| - |r|..]
    ensures forall k :: 0 <= k < |s| - |r| ==> p(s[k])
    ensures r == [] || !p(r[0])
  {
    if |s| > 0 && p(s[0]) then DropWhile(s[1..], p) else s
  }

  /** Drops the longest suffix whose characters all satisfy `p`. */
  function DropWhileEnd(s: string, p: char -> bool): (r: string)
    ensures |r| <= |s| && r == s[..|r|]
    ensures forall k :: |r| <= k < |s| ==> p(s[k])
    ensures r == [] || !p(r[|r| - 1])
  {
    if |s| > 0 && p(s[|s| - 1]) then DropWhileEnd(s[..|s| - 1], p) else s
  }

  /** The characters `trim()` strips by default: space, tab, LF, CR, NUL, vertical tab. */
  predicate IsTrimChar(c: char) {
    c == ' ' || c == '\t' || c == '\n' || c == '\r' || c == '\0' || c == 11 as char
  }

  /** `r` is the slice of `s` starting at `i`, and everything of `s` before
      and after that slice is a trim character. */
  predicate StrippedSlice(s: string, i: nat, r: string) {
    && i + |r| <= |s| && r == s[i..i + |r|]
    && (forall k :: 0 <= k < i ==> IsTrimChar(s[k]))
    && (forall k :: i + |r| <= k < |s| ==> IsTrimChar(s[k]))
  }

  /** PHP `trim($s)` with the default character list: the middle slice of
      `s` left after stripping trim characters from both ends. */
  function Trim(s: string): (r: string)
    ensures |r| <= |s|
    ensures r == [] || (!IsTrimChar(r[0]) && !IsTrimChar(r[|r| - 1]))
    ensures exists i :: StrippedSlice(s, i, r)
  {
    var l := DropWhile(s, IsTrimChar);
    var r := DropWhileEnd(l, IsTrimChar);
    TrimSlice(s, l, r);
    r
  }

  lemma TrimSlice(s: string, l: string, r: string)
    requires l == DropWhile(s, IsTrimChar) && r == DropWhileEnd(l, IsTrimChar)
    ensures StrippedSlice(s, |s| - |l|, r)
  {
    var i := |s| - |l|;
    assert l == s[i..];
    assert r == l[..|r|];
    SliceOfSuffix(s, l, r, i);
    forall k | 0 <= k < i ensures IsTrimChar(s[k]) {
    }
    forall k | i + |r| <= k < |s| ensures IsTrimChar(s[k]) {
      assert s[k] == l[k - i];
    }
    assert i + |r| <= |s|;
    assert StrippedSlice(s, i, r);
  }

  lemma SliceOfSuffix(s: string, l: string, r: string, i: nat)
    requires i <= |s| && l == s[i..] && |r| <= |l| && r == l[..|r|]
    ensures r == s[i..i + |r|]
  {
  }

  /** `Trim` is the only stripped slice with clean ends: whatever removes
      trim characters from the two ends until none is left there is `trim()`. */
  lemma TrimUnique(s: string, i: nat, t: string)
    requires StrippedSlice(s, i, t)
    requires t == [] || (!IsTrimChar(t[0]) && !IsTrimChar(t[|t| - 1]))
    ensures t == Trim(s)
  {
    var r := Trim(s);
    var j :| StrippedSlice(s, j, r);
    CleanSliceEmptyIffAllTrim(s, i, t);
    CleanSliceEmptyIffAllTrim(s, j, r);
    if t != [] {
      CleanSlicesAgree(s, i, t, j, r);
    }
  }

  /** A stripped slice with clean ends is empty exactly when every character
      of the string is a trim character. */
  lemma CleanSliceEmptyIffAllTrim(s: string, i: nat, t: string)
    requires StrippedSlice(s, i, t)
    requires t == [] || (!IsTrimChar(t[0]) && !IsTrimChar(t[|t| - 1]))
    ensures t == [] <==> forall k :: 0 <= k < |s| ==> IsTrimChar(s[k])
  {
    if t != [] {
      assert s[i] == t[0];
    }
  }

  /** Two non-empty stripped slices with clean ends start and end at the same place. */
  lemma CleanSlicesAgree(s: string, i: nat, t: string, j: nat, r: string)
    requires StrippedSlice(s, i, t) && t != [] && !IsTrimChar(t[0]) && !IsTrimChar(t[|t| - 1])
    requires StrippedSlice(s, j, r) && r != [] && !IsTrimChar(r[0]) && !IsTrimChar(r[|r| - 1])
    ensures t == r
  {
    assert s[i] == t[0] && s[j] == r[0];
    assert i == j;
    assert s[i + |t| - 1] == t[|t| - 1] && s[j + |r| - 1] == r[|r| - 1];
    assert |t| == |r|;
  }

  /** A string with no strippable character at either end is its own trim. */
  lemma TrimKeepsClean(s: string)
    requires s == [] || (!IsTrimChar(s[0]) && !IsTrimChar(s[|s| - 1]))
    ensures Trim(s) == s
  {
    var l := DropWhile(s, IsTrimChar);
    assert l == s;
  }

  /** `trim()` is idempotent. */
  lemma TrimIdempotent(s: string)
    ensures Trim(Trim(s)) == Trim(s)
  {
    TrimKeepsClean(Trim(s));
  }

  // ---------------------------------------------------------------------
  // Decimal digits, `%d`, `(int)` and `absint()`
  // ---------------------------------------------------------------------

  predicate IsDigit(c: char) {
    '0' <= c <= '9'
  }

  predicate AllDigits(s: string) {
    forall i :: 0 <= i < |s| ==> IsDigit(s[i])
  }

  function DigitValue(c: char): nat
    requires IsDigit(c)
  {
    assert '0' as int <= c as int;
    c as int - '0' as int
  }

  function DigitChar(d: nat): (c: char)
    requires d < 10
    ensures IsDigit(c) && DigitValue(c) == d
  {
    ('0' as int + d) as char
  }

  /** The value of a run of decimal digits, most significant first. */
  function DigitsValue(ds: string): nat
    requires AllDigits(ds)
  {
    if ds == [] then 0 else DigitsValue(ds[..|ds| - 1]) * 10 + DigitValue(ds[|ds| - 1])
  }

  /** `sprintf('%d', $n)` for a non-negative `$n`: decimal digits, no leading zero. */
  function Decimal(n: nat): (r: string)
    ensures |r| > 0 && AllDigits(r)
    ensures r[0] == '0' ==> n == 0
    ensures forall i :: 0 <= i < |r| ==> r[i] != '-' && r[i] != '_'
  {
    if n < 10 then [DigitChar(n)] else Decimal(n / 10) + [DigitChar(n % 10)]
  }

  /** The longest all-digit prefix of `s`. */
  function LeadingDigits(s: string): (r: string)
    ensures r <= s && AllDigits(r)
    ensures |r| == |s| || !IsDigit(s[|r|])
  {
    if |s| > 0 && IsDigit(s[0]) then [s[0]] + LeadingDigits(s[1..]) else []
  }

  /** The white space `(int)` and `is_numeric()` skip: space, \t, \n, \r, \v, \f. */
  predicate IsSpace(c: char) {
    c == ' ' || c == '\t' || c == '\n' || c == '\r' || c == 11 as char || c == 12 as char
  }

  /** The optional sign and the digits after leading white space. */
  function SignAndDigits(s: string): (bool, string)
  {
    var t := DropWhile(s, IsSpace);
    if |t| > 0 && (t[0] == '-' || t[0] == '+') then (t[0] == '-', t[1..]) else (false, t)
  }

  /** PHP `(int) $s` / `intval($s)`: leading white space, an optional sign,
      then as many decimal digits as there are; anything else reads as 0. */
  function IntVal(s: string): int
  {
    var (negative, rest) := SignAndDigits(s);
    var v: int := DigitsValue(LeadingDigits(rest));
    if negative then -v else v
  }

  /** PHP `is_numeric($s)` restricted to integer syntax: white space, sign,
      at least one digit, then only trailing white space. */
  predicate IsNumeric(s: string) {
    var (_, rest) := SignAndDigits(s);
    var ds := LeadingDigits(rest);
    |ds| > 0 && forall k :: |ds| <= k < |rest| ==> IsSpace(rest[k])
  }

  /** WordPress `absint()` on an integer. */
  function AbsInt(i: int): nat
  {
    if i < 0 then -i else i
  }

  /** WordPress `absint()` on a string. */
  function AbsIntStr(s: string): nat
  {
    AbsInt(IntVal(s))
  }

  lemma LeadingDigitsOfDigits(s: string)
    requires AllDigits(s)
    ensures LeadingDigits(s) == s
  {
  }

  lemma {:induction false} DigitsValueOfDecimal(n: nat)
    ensures DigitsValue(Decimal(n)) == n
  {
    if n >= 10 {
      DigitsValueOfDecimal(n / 10);
      var d := Decimal(n / 10);
      assert (d + [DigitChar(n % 10)])[..|d|] == d;
    }
  }

  /** Rendering with `%d` and reading back with `(int)`/`absint()` is the identity,
      and the rendering is numeric. */
  lemma DecimalRoundTrip(n: nat)
    ensures IntVal(Decimal(n)) == n
    ensures AbsIntStr(Decimal(n)) == n
    ensures IsNumeric(Decimal(n))
  {
    var s := Decimal(n);
    assert DropWhile(s, IsSpace) == s;
    LeadingDigitsOfDigits(s);
    DigitsValueOfDecimal(n);
  }

  /** Distinct ids render differently. */
  lemma DecimalInjective(a: nat, b: nat)
    requires Decimal(a) == Decimal(b)
    ensures a == b
  {
    DecimalRoundTrip(a);
    DecimalRoundTrip(b);
  }

  /** A decimal id followed by `-` fixes the id: two such strings that agree
      must carry the same id, whatever follows the dash. This is what keeps
      per-term names of one taxonomy apart. */
  lemma DashTerminatedDecimal(a: nat, b: nat, x: string, y: string)
    requires Decimal(a) + "-" + x == Decimal(b) + "-" + y
    ensures a == b && x == y
  {
    var da, db := Decimal(a), Decimal(b);
    var s := da + "-" + x;
    FirstDashAfter(da, x);
    FirstDashAfter(db, y);
    assert da == s[..|da|] == db;
    DecimalInjective(a, b);
    assert x == s[|da| + 1..] == y;
  }

  /** Index of the first `-` in `s`, or `|s|` when there is none. */
  function FirstDash(s: string): (i: nat)
    ensures i <= |s|
  {
    if s == [] || s[0] == '-' then 0 else 1 + FirstDash(s[1..])
  }

  lemma {:induction false} FirstDashAfter(d: string, rest: string)
    requires forall i :: 0 <= i < |d| ==> d[i] != '-'
    ensures FirstDash(d + "-" + rest) == |d|
  {
    if d != [] {
      assert (d + "-" + rest)[1..] == d[1..] + "-" + rest;
      FirstDashAfter(d[1..], rest);
    }
  }

  /** Index of the last `-` in `s`, or -1 when there is none. */
  function LastDash(s: string): (i: int)
    ensures -1 <= i < |s|
  {
    if s == [] then -1 else if s[|s| - 1] == '-' then |s| - 1 else LastDash(s[..|s| - 1])
  }

  lemma {:induction false} LastDashBefore(pre: string, d: string)
    requires forall i :: 0 <= i < |d| ==> d[i] != '-'
    ensures LastDash(pre + "-" + d) == |pre|
  {
    if d != [] {
      var s := pre + "-" + d;
      assert s[..|s| - 1] == pre + "-" + d[..|d| - 1];
      LastDashBefore(pre, d[..|d| - 1]);
    }
  }

  /** A string followed by `-` and a decimal id fixes both parts, even when
      the string itself contains dashes. */
  lemma DashDecimalSuffix(x: string, y: string, a: nat, b: nat)
    requires x + "-" + Decimal(a) == y + "-" + Decimal(b)
    ensures x == y && a == b
  {
    var s := x + "-" + Decimal(a);
    LastDashBefore(x, Decimal(a));
    LastDashBefore(y, Decimal(b));
    assert x == s[..|x|] == y;
    assert Decimal(a) == s[|x| + 1..] == Decimal(b);
    DecimalInjective(a, b);
  }

  // ---------------------------------------------------------------------
  // sanitize_key()
  // ---------------------------------------------------------------------

  /** The characters `sanitize_key()` keeps: lower-case letters, digits, `_`, `-`. */
  predicate IsKeyChar(c: char) {
    ('a' <= c <= 'z') || ('0' <= c <= '9') || c == '_' || c == '-'
  }

  predicate IsKey(s: string) {
    forall i :: 0 <= i < |s| ==> IsKeyChar(s[i])
  }

  /** ASCII `strtolower()` on one character. */
  function Lower(c: char): char {
    if 'A' <= c <= 'Z' then (c as int + 32) as char else c
  }

  /** WordPress `sanitize_key()`: lower-case, then drop every character
      outside `[a-z0-9_-]`. */
  function SanitizeKey(s: string): (r: string)
    ensures IsKey(r) && |r| <= |s|
  {
    if s == [] then []
    else
      var c := Lower(s[0]);
      (if IsKeyChar(c) then [c] else []) + SanitizeKey(s[1..])
  }

  /** A string that is already a key is left unchanged. */
  lemma {:induction false} SanitizeKeyOfKey(s: string)
    requires IsKey(s)
    ensures SanitizeKey(s) == s
  {
    if s != [] {
      SanitizeKeyOfKey(s[1..]);
      assert [s[0]] + s[1..] == s;
    }
  }

  /** `sanitize_key()` is idempotent. */
  lemma SanitizeKeyIdempotent(s: string)
    ensures SanitizeKey(SanitizeKey(s)) == SanitizeKey(s)
  {
    SanitizeKeyOfKey(SanitizeKey(s));
  }

  // ---------------------------------------------------------------------
  // strcmp() ordering
  // ---------------------------------------------------------------------

  /** `strcmp($a, $b) < 0`: lexicographic order by character code. The
      model sorts display names by it; PHP's SORT_REGULAR compares two
      numeric strings by value instead. */
  predicate StrLt(a: string, b: string) {
    if a == [] then b != []
    else if b == [] then false
    else if a[0] != b[0] then a[0] < b[0]
    else StrLt(a[1..], b[1..])
  }

  lemma {:induction false} StrLtIrreflexive(a: string)
    ensures !StrLt(a, a)
  {
    if a != [] {
      StrLtIrreflexive(a[1..]);
    }
  }

  lemma {:induction false} StrLtTransitive(a: string, b: string, c: string)
    requires StrLt(a, b) && StrLt(b, c)
    ensures StrLt(a, c)
  {
    if a != [] && b != [] && c != [] && a[0] == b[0] && b[0] == c[0] {
      StrLtTransitive(a[1..], b[1..], c[1..]);
    }
  }

  lemma {:induction false} StrLtTotal(a: string, b: string)
    requires a != b
    ensures StrLt(a, b) || StrLt(b, a)
  {
    if a != [] && b != [] && a[0] == b[0] {
      assert a == [a[0]] + a[1..] && b == [b[0]] + b[1..];
      StrLtTotal(a[1..], b[1..]);
    }
  }
}

=== FILE: sequences.dfy ===
/** Sequence operations behind PHP's array functions on id lists:
    a generic insertion sort (`sort()`, `array_multisort()`), `array_unique()`
    keeping first occurrences, `array_filter()` dropping falsy ids, and removal
    of the first occurrence (`array_search()` followed by `unset()`). */
module Sequences {

  /** `le` is total and transitive (and so reflexive): a sort key order. */
  ghost predicate TotalPreorder<T(!new)>(le: (T, T) -> bool) {
    && (forall a, b :: le(a, b) || le(b, a))
    && (forall a, b, c :: le(a, b) && le(b, c) ==> le(a, c))
  }

  ghost predicate SortedBy<T>(le: (T, T) -> bool, s: seq<T>) {
    forall i, j :: 0 <= i < j < |s| ==> le(s[i], s[j])
  }

  /** Inserts `x` before the first element it is `le`-below. */
  function Insert<T>(x: T, s: seq<T>, le: (T, T) -> bool): (r: seq<T>)
    ensures multiset(r) == multiset(s) + multiset{x}
  {
    if s == [] then [x]
    else if le(x, s[0]) then [x] + s
    else
      assert s == [s[0]] + s[1..];
      [s[0]] + Insert(x, s[1..], le)
  }

  function InsertionSort<T>(s: seq<T>, le: (T, T) -> bool): (r: seq<T>)
    ensures multiset(r) == multiset(s)
  {
    if s == [] then []
    else
      assert s == [s[0]] + s[1..];
      Insert(s[0], InsertionSort(s[1..], le), le)
  }

  lemma {:induction false} InsertSorted<T(!new)>(x: T, s: seq<T>, le: (T, T) -> bool)
    requires TotalPreorder(le) && SortedBy(le, s)
    ensures SortedBy(le, Insert(x, s, le))
  {
    var r := Insert(x, s, le);
    if s == [] {
    } else if le(x, s[0]) {
      forall i, j | 0 <= i < j < |r| ensures le(r[i], r[j]) {
        if i == 0 {
          assert le(s[0], s[j - 1]) || j == 1;
        }
      }
    } else {
      var t := Insert(x, s[1..], le);
      InsertSorted(x, s[1..], le);
      assert r == [s[0]] + t;
      forall j | 0 < j < |r| ensures le(s[0], r[j]) {
        assert r[j] == t[j - 1];
        assert r[j] in multiset(t);
        if r[j] != x {
          assert r[j] in multiset(s[1..]);
          var k :| 0 <= k < |s[1..]| && s[1..][k] == r[j];
          assert s[k + 1] == r[j];
        }
      }
    }
  }

  /** Insertion sort under a total preorder yields a sorted permutation. */
  lemma {:induction false} InsertionSortSorted<T(!new)>(s: seq<T>, le: (T, T) -> bool)
    requires TotalPreorder(le)
    ensures SortedBy(le, InsertionSort(s, le))
  {
    if s != [] {
      InsertionSortSorted(s[1..], le);
      InsertSorted(s[0], InsertionSort(s[1..], le), le);
    }
  }

  // ---------------------------------------------------------------------
  // Id lists
  // ---------------------------------------------------------------------

  ghost predicate Ascending(s: seq<nat>) {
    forall i, j :: 0 <= i < j < |s| ==> s[i] <= s[j]
  }

  ghost predicate StrictlyAscending(s: seq<nat>) {
    forall i, j :: 0 <= i < j < |s| ==> s[i] < s[j]
  }

  ghost predicate NoDup<T>(s: seq<T>) {
    forall i, j :: 0 <= i < j < |s| ==> s[i] != s[j]
  }

  /** PHP `sort()` on an id list: ascending, same elements. */
  function SortAsc(s: seq<nat>): (r: seq<nat>)
    ensures multiset(r) == multiset(s)
    ensures Ascending(r)
  {
    var le := (a: nat, b: nat) => a <= b;
    InsertionSortSorted(s, le);
    InsertionSort(s, le)
  }

  /** PHP `array_unique()`: keeps the first occurrence of every value. */
  function Unique(s: seq<nat>): (r: seq<nat>)
    ensures NoDup(r)
    ensures forall x :: x in r <==> x in s
  {
    if s == [] then []
    else
      var init := s[..|s| - 1];
      assert s == init + [s[|s| - 1]];
      var u := Unique(init);
      if s[|s| - 1] in u then u else u + [s[|s| - 1]]
  }

  /** PHP `array_filter()` on an id list: drops the falsy entries (0 / `false`). */
  function DropZeros(s: seq<nat>): (r: seq<nat>)
    ensures forall x :: x in r <==> x in s && x != 0
    ensures multiset(r) <= multiset(s)
  {
    if s == [] then []
    else
      assert s == [s[0]] + s[1..];
      (if s[0] == 0 then [] else [s[0]]) + DropZeros(s[1..])
  }

  /** `array_search()` then `unset()`: removes the first occurrence of `t`, if any. */
  function RemoveFirst<T(==)>(s: seq<T>, t: T): (r: seq<T>)
    ensures multiset(r) == multiset(s) - multiset{t}
  {
    if s == [] then []
    else
      assert s == [s[0]] + s[1..];
      if s[0] == t then s[1..] else [s[0]] + RemoveFirst(s[1..], t)
  }

  lemma DupCount<T>(s: seq<T>, i: nat, j: nat)
    requires i < j < |s| && s[i] == s[j]
    ensures multiset(s)[s[i]] >= 2
  {
    assert s == s[..j] + s[j..];
    assert s[i] in s[..j];
    assert s[j] == s[j..][0];
  }

  /** Duplicate-freedom is a property of the multiset: no count exceeds one. */
  lemma {:induction false} NoDupIffCounts<T>(s: seq<T>)
    ensures NoDup(s) <==> forall x :: multiset(s)[x] <= 1
  {
    if NoDup(s) {
      if s != [] {
        assert s == [s[0]] + s[1..];
        assert NoDup(s[1..]) by {
          forall i, j | 0 <= i < j < |s[1..]| ensures s[1..][i] != s[1..][j] {
            assert s[1..][i] == s[i + 1] && s[1..][j] == s[j + 1];
          }
        }
        NoDupIffCounts(s[1..]);
        assert s[0] !in s[1..];
      }
    } else {
      var i, j :| 0 <= i < j < |s| && s[i] == s[j];
      DupCount(s, i, j);
    }
  }

  lemma NoDupPermutation<T>(a: seq<T>, b: seq<T>)
    requires NoDup(a) && multiset(a) == multiset(b)
    ensures NoDup(b)
  {
    NoDupIffCounts(a);
    NoDupIffCounts(b);
  }

  lemma NoDupSubMultiset<T>(a: seq<T>, b: seq<T>)
    requires NoDup(a) && multiset(b) <= multiset(a)
    ensures NoDup(b)
  {
    NoDupIffCounts(a);
    NoDupIffCounts(b);
  }

  /** Permutations have the same members. */
  lemma PermutationMembers<T>(a: seq<T>, b: seq<T>)
    requires multiset(a) == multiset(b)
    ensures forall x :: x in a <==> x in b
  {
    forall x ensures x in a <==> x in b {
      assert x in a <==> x in multiset(a);
      assert x in b <==> x in multiset(b);
    }
  }

  /** The head of a strictly ascending list is its least member. */
  lemma StrictHeadIsLeast(a: seq<nat>, x: nat)
    requires StrictlyAscending(a) && x in a
    ensures a[0] <= x
  {
    var i :| 0 <= i < |a| && a[i] == x;
  }

  /** The tail of a strictly ascending list holds exactly its members other than the head. */
  lemma StrictTailMembers(a: seq<nat>)
    requires StrictlyAscending(a) && a != []
    ensures StrictlyAscending(a[1..])
    ensures forall x :: x in a[1..] <==> x in a && x != a[0]
  {
    assert a == [a[0]] + a[1..];
    forall x | x in a[1..] ensures x != a[0] {
      var i :| 0 <= i < |a[1..]| && a[1..][i] == x;
      assert a[i + 1] == x;
    }
  }

  /** Two strictly ascending lists with the same members are equal. */
  lemma {:induction false} StrictlyAscendingUnique(a: seq<nat>, b: seq<nat>)
    requires StrictlyAscending(a) && StrictlyAscending(b)
    requires forall x :: x in a <==> x in b
    ensures a == b
  {
    if a == [] {
      assert forall i :: 0 <= i < |b| ==> b[i] in a;
    } else {
      assert a[0] in b;
      assert b[0] in a;
      StrictHeadIsLeast(a, b[0]);
      StrictHeadIsLeast(b, a[0]);
      StrictTailMembers(a);
      StrictTailMembers(b);
      StrictlyAscendingUnique(a[1..], b[1..]);
      assert a == [a[0]] + a[1..] && b == [b[0]] + b[1..];
    }
  }

  /** Sorting a duplicate-free list gives a strictly ascending list. */
  lemma SortAscStrict(s: seq<nat>)
    requires NoDup(s)
    ensures StrictlyAscending(SortAsc(s))
  {
    NoDupPermutation(s, SortAsc(s));
  }
}

=== FILE: term_meta.dfy ===
/** Per-term restriction settings (includes/class-wc-rectrict-categories-term-meta.php):
    option names scoped to a (term, taxonomy) pair, the options table, the
    term-edit save path with its sanitisation, the per-taxonomy restricted-term
    index, and `sort_user_ids()`. */
module TermMeta {
  import opened Wrappers
  import opened Php
  import opened Sequences

  /** Configuration the engine reads but does not own: the option name
      prefix (`WC_Restrict_Categories::PREFIX`), the gated taxonomies
      (`$taxonomies`) and the gated post types (`$post_types`). */
  datatype Config = Config(prefix: string, taxonomies: seq<string>, postTypes: seq<string>)

  /** A stored option value: a string, a list of strings, or an id list.
      In an id list, 0 stands for PHP's falsy entry (`false` or 0). */
  datatype Value = Text(s: string) | Texts(items: seq<string>) | Ids(ids: seq<nat>)

  /** The options table behind `get_option()` / `update_option()`;
      an absent key reads as `false`. */
  type Options = map<string, Value>

  /** One `$_POST` entry: a string, or the list a `name[]` field produces. */
  datatype PostValue = PText(s: string) | PList(items: seq<string>)

  type Post = map<string, PostValue>

  /** WordPress collaborators of the save path: `sanitize_text_field()`, and
      the user field `sort_user_ids()` orders by, looked up by user id
      (None when the user does not exist or lacks the field). */
  datatype SaveEnv = SaveEnv(sanitizeText: string -> string, userField: string -> Option<string>)

  // ---------------------------------------------------------------------
  // Option names
  // ---------------------------------------------------------------------

  /** `get_tax_term_option_name()`: `%s%s_%d-%s` of the prefix, the sanitized
      taxonomy, the absint term id and the sanitized option name ("" for the
      option-less name, since `sanitize_key(null)` is ""). */
  function OptionName(prefix: string, termId: int, taxonomy: string, option: string): string
  {
    prefix + SanitizeKey(taxonomy) + "_" + Decimal(AbsInt(termId)) + "-" + SanitizeKey(option)
  }

  /** The option-less name: the prefix every field of the term starts with. */
  function TermPrefix(prefix: string, termId: int, taxonomy: string): (r: string)
    ensures r == OptionName(prefix, termId, taxonomy, "")
  {
    prefix + SanitizeKey(taxonomy) + "_" + Decimal(AbsInt(termId)) + "-"
  }

  /** The option holding a taxonomy's restricted-term index, as the save path names it. */
  function IndexName(prefix: string, taxonomy: string): string
  {
    prefix + SanitizeKey(taxonomy)
  }

  /** Every field name of a term is its option-less name followed by the
      sanitized field. */
  lemma OptionNameHasTermPrefix(prefix: string, termId: int, taxonomy: string, option: string)
    ensures OptionName(prefix, termId, taxonomy, option)
            == OptionName(prefix, termId, taxonomy, "") + SanitizeKey(option)
    ensures OptionName(prefix, termId, taxonomy, "") <= OptionName(prefix, termId, taxonomy, option)
  {
  }

  /** Within one taxonomy, names of different terms or different (sanitized)
      fields never collide; the term id is read through `absint()`. */
  lemma OptionNameDistinct(prefix: string, taxonomy: string, t1: int, t2: int, o1: string, o2: string)
    requires OptionName(prefix, t1, taxonomy, o1) == OptionName(prefix, t2, taxonomy, o2)
    ensures AbsInt(t1) == AbsInt(t2) && SanitizeKey(o1) == SanitizeKey(o2)
  {
    var head := prefix + SanitizeKey(taxonomy) + "_";
    var s1 := Decimal(AbsInt(t1)) + "-" + SanitizeKey(o1);
    var s2 := Decimal(AbsInt(t2)) + "-" + SanitizeKey(o2);
    OptionNameSplits(prefix, t1, taxonomy, o1);
    OptionNameSplits(prefix, t2, taxonomy, o2);
    assert (head + s1)[|head|..] == s1 && (head + s2)[|head|..] == s2;
    DashTerminatedDecimal(AbsInt(t1), AbsInt(t2), SanitizeKey(o1), SanitizeKey(o2));
  }

  /** An option name is the taxonomy head followed by the term's `id-option` part. */
  lemma OptionNameSplits(prefix: string, termId: int, taxonomy: string, option: string)
    ensures OptionName(prefix, termId, taxonomy, option)
            == (prefix + SanitizeKey(taxonomy) + "_") + (Decimal(AbsInt(termId)) + "-" + SanitizeKey(option))
  {
  }

  /** The index option of a taxonomy is never one of its terms' field names. */
  lemma IndexNameIsNoField(prefix: string, termId: int, taxonomy: string, k: string)
    requires TermPrefix(prefix, termId, taxonomy) <= k
    ensures k != IndexName(prefix, taxonomy)
  {
  }

  // ---------------------------------------------------------------------
  // Reading options
  // ---------------------------------------------------------------------

  /** `get_tax_term_option()` with the default `false`, modelled as None. */
  function GetTaxTermOption(options: Options, prefix: string, termId: int, taxonomy: string, option: string): (r: Option<Value>)
    ensures r.None? <==> OptionName(prefix, termId, taxonomy, option) !in options
    ensures r.Some? ==> r.value == options[OptionName(prefix, termId, taxonomy, option)]
  {
    var name := OptionName(prefix, termId, taxonomy, option);
    if name in options then Some(options[name]) else None
  }

  /** A `(string)` cast of an option: `false` is "", a list is "Array". */
  function AsString(v: Option<Value>): string
  {
    match v
    case None => ""
    case Some(Text(s)) => s
    case Some(_) => "Array"
  }

  /** `(array) get_option($index)`: an absent index reads as `[false]`, i.e. [0].
      Any other non-list value also reads as [0] here, where PHP would cast a
      string "s" to ["s"]; the save hook only ever stores id lists. */
  function ReadIndex(options: Options, name: string): (r: seq<nat>)
    ensures name in options && options[name].Ids? ==> r == options[name].ids
  {
    if name in options && options[name].Ids? then options[name].ids else [0]
  }

  // ---------------------------------------------------------------------
  // The restricted-term index
  // ---------------------------------------------------------------------

  /** Saving `active = 'yes'`: append the id, `array_unique`, `array_filter`, `sort`. */
  function Activate(terms: seq<nat>, termId: nat): (r: seq<nat>)
    ensures StrictlyAscending(r)
    ensures forall x :: x in r <==> x != 0 && (x in terms || x == termId)
  {
    var u := Unique(terms + [termId]);
    var f := DropZeros(u);
    NoDupSubMultiset(u, f);
    SortAscStrict(f);
    PermutationMembers(f, SortAsc(f));
    SortAsc(f)
  }

  /** Saving any other `active` value: remove the first occurrence, then `sort`. */
  function Deactivate(terms: seq<nat>, termId: nat): (r: seq<nat>)
    ensures Ascending(r)
    ensures multiset(r) == multiset(terms) - multiset{termId}
  {
    SortAsc(RemoveFirst(terms, termId))
  }

  function UpdateIndex(terms: seq<nat>, termId: nat, active: Value): seq<nat>
  {
    if active == Text("yes") then Activate(terms, termId) else Deactivate(terms, termId)
  }

  /** After activation a real term id is in the index exactly once. */
  lemma ActivateOnce(terms: seq<nat>, termId: nat)
    requires termId > 0
    ensures multiset(Activate(terms, termId))[termId] == 1
  {
    var r := Activate(terms, termId);
    NoDupIffCounts(r);
  }

  /** Activating the same term twice gives the same index as once. */
  lemma ActivateIdempotent(terms: seq<nat>, termId: nat)
    ensures Activate(Activate(terms, termId), termId) == Activate(terms, termId)
  {
    var once := Activate(terms, termId);
    StrictlyAscendingUnique(Activate(once, termId), once);
  }

  /** On a duplicate-free index, deactivation leaves the term absent. */
  lemma DeactivateRemoves(terms: seq<nat>, termId: nat)
    requires NoDup(terms)
    ensures termId !in Deactivate(terms, termId)
    ensures NoDup(Deactivate(terms, termId))
  {
    var r: seq<nat> := Deactivate(terms, termId);
    NoDupIffCounts<nat>(terms);
    NoDupIffCounts<nat>(r);
    assert termId !in multiset(r);
  }

  /** On a duplicate-free index, deactivating twice is deactivating once. */
  lemma DeactivateIdempotent(terms: seq<nat>, termId: nat)
    requires NoDup(terms)
    ensures Deactivate(Deactivate(terms, termId), termId) == Deactivate(terms, termId)
  {
    var once := Deactivate(terms, termId);
    DeactivateRemoves(terms, termId);
    var twice := Deactivate(once, termId);
    assert multiset(twice) == multiset(once);
    NoDupPermutation(once, twice);
    forall x ensures x in twice <==> x in once {
      assert x in twice <==> x in multiset(twice);
    }
    StrictlyAscendingUnique(twice, once);
  }

  /** Re-applying the same index update changes nothing (for a duplicate-free index). */
  lemma UpdateIndexIdempotent(terms: seq<nat>, termId: nat, active: Value)
    requires NoDup(terms)
    ensures UpdateIndex(UpdateIndex(terms, termId, active), termId, active)
            == UpdateIndex(terms, termId, active)
  {
    if active == Text("yes") {
      ActivateIdempotent(terms, termId);
    } else {
      DeactivateIdempotent(terms, termId);
    }
  }

  // ---------------------------------------------------------------------
  // sort_user_ids()
  // ---------------------------------------------------------------------

  /** The key `sort_user_ids()` collects per user: the field, or null when the
      user or field is missing or PHP-empty. */
  function SortKey(userField: string -> Option<string>, user: string): Option<string>
  {
    match userField(user)
    case Some(v) => if IsEmptyString(v) then None else Some(v)
    case None => None
  }

  /** Strict key order: null before any string, strings in byte order
      (numeric display names are not compared by value). */
  predicate KeyLt(a: Option<string>, b: Option<string>) {
    match (a, b)
    case (None, Some(_)) => true
    case (Some(x), Some(y)) => StrLt(x, y)
    case _ => false
  }

  predicate KeyLe(a: Option<string>, b: Option<string>) {
    KeyLt(a, b) || a == b
  }

  lemma KeyLtStrictTotal(a: Option<string>, b: Option<string>, c: Option<string>)
    ensures !KeyLt(a, a)
    ensures a != b ==> KeyLt(a, b) || KeyLt(b, a)
    ensures KeyLt(a, b) && KeyLt(b, c) ==> KeyLt(a, c)
  {
    if a.Some? {
      StrLtIrreflexive(a.value);
    }
    if a.Some? && b.Some? && a != b {
      StrLtTotal(a.value, b.value);
    }
    if a.Some? && b.Some? && c.Some? && KeyLt(a, b) && KeyLt(b, c) {
      StrLtTransitive(a.value, b.value, c.value);
    }
  }

  /** The model's row order for `array_multisort($sort, $order, $users)`: by key in the
      requested direction, ties broken by the user id in ascending order. */
  predicate UserRowLe(userField: string -> Option<string>, descending: bool, a: string, b: string) {
    var ka, kb := SortKey(userField, a), SortKey(userField, b);
    if ka != kb then (if descending then KeyLt(kb, ka) else KeyLt(ka, kb))
    else IntVal(a) <= IntVal(b)
  }

  lemma UserRowLeTotalPreorder(userField: string -> Option<string>, descending: bool)
    ensures forall a, b :: UserRowLe(userField, descending, a, b) || UserRowLe(userField, descending, b, a)
    ensures forall a, b, c :: UserRowLe(userField, descending, a, b) && UserRowLe(userField, descending, b, c)
                              ==> UserRowLe(userField, descending, a, c)
  {
    forall a, b ensures UserRowLe(userField, descending, a, b) || UserRowLe(userField, descending, b, a) {
      KeyLtStrictTotal(SortKey(userField, a), SortKey(userField, b), SortKey(userField, a));
    }
    forall a, b, c | UserRowLe(userField, descending, a, b) && UserRowLe(userField, descending, b, c)
      ensures UserRowLe(userField, descending, a, c)
    {
      var ka, kb, kc := SortKey(userField, a), SortKey(userField, b), SortKey(userField, c);
      KeyLtStrictTotal(ka, kb, kc);
      KeyLtStrictTotal(kc, kb, ka);
      KeyLtStrictTotal(ka, kc, ka);
    }
  }

  /** `sort_user_ids($users, 'display_name'|…, $order)`: a permutation of the
      input ordered by key, descending when `$order` is exactly 'DESC'. */
  function SortUserIds(users: seq<string>, userField: string -> Option<string>, order: string): (r: seq<string>)
    ensures multiset(r) == multiset(users)
    ensures order != "DESC" ==>
      forall i, j :: 0 <= i < j < |r| ==> KeyLe(SortKey(userField, r[i]), SortKey(userField, r[j]))
    ensures order == "DESC" ==>
      forall i, j :: 0 <= i < j < |r| ==> KeyLe(SortKey(userField, r[j]), SortKey(userField, r[i]))
  {
    var descending := order == "DESC";
    var le := (a: string, b: string) => UserRowLe(userField, descending, a, b);
    UserRowLeTotalPreorder(userField, descending);
    assert TotalPreorder(le);
    InsertionSortSorted(users, le);
    InsertionSort(users, le)
  }

  // ---------------------------------------------------------------------
  // save_custom_term_fields()
  // ---------------------------------------------------------------------

  /** `array_filter()` on a string list: drops "" and "0". */
  function DropEmptyStrings(items: seq<string>): (r: seq<string>)
    ensures forall x :: x in r <==> x in items && !IsEmptyString(x)
    ensures forall x :: multiset(r)[x] == if IsEmptyString(x) then 0 else multiset(items)[x]
  {
    if items == [] then []
    else
      assert items == [items[0]] + items[1..];
      assert multiset(items) == multiset{items[0]} + multiset(items[1..]);
      (if IsEmptyString(items[0]) then [] else [items[0]]) + DropEmptyStrings(items[1..])
  }

  function AbsInts(s: seq<string>): (r: seq<nat>)
    ensures |r| == |s| && forall i :: 0 <= i < |s| ==> r[i] == AbsIntStr(s[i])
  {
    seq(|s|, i requires 0 <= i < |s| => AbsIntStr(s[i]))
  }

  function MapText(s: seq<string>, f: string -> string): (r: seq<string>)
    ensures |r| == |s| && forall i :: 0 <= i < |s| ==> r[i] == f(s[i])
  {
    seq(|s|, i requires 0 <= i < |s| => f(s[i]))
  }

  /** `id` is the `absint()` of a non-empty submitted entry. */
  predicate SubmittedId(items: seq<string>, id: nat) {
    exists u :: u in items && !IsEmptyString(u) && AbsIntStr(u) == id
  }

  /** `t` is the sanitized form of a non-empty submitted entry. */
  predicate SubmittedText(items: seq<string>, sanitize: string -> string, t: string) {
    exists u :: u in items && !IsEmptyString(u) && sanitize(u) == t
  }

  lemma IdsFromSubmitted(items: seq<string>, kept: seq<string>)
    requires forall x :: x in kept ==> x in items && !IsEmptyString(x)
    ensures forall i :: 0 <= i < |kept| ==> SubmittedId(items, AbsIntStr(kept[i]))
  {
    forall i | 0 <= i < |kept| ensures SubmittedId(items, AbsIntStr(kept[i])) {
      assert kept[i] in kept;
    }
  }

  lemma TextsFromSubmitted(items: seq<string>, kept: seq<string>, sanitize: string -> string)
    requires forall x :: x in kept ==> x in items && !IsEmptyString(x)
    ensures forall i :: 0 <= i < |kept| ==> SubmittedText(items, sanitize, sanitize(kept[i]))
  {
    forall i | 0 <= i < |kept| ensures SubmittedText(items, sanitize, sanitize(kept[i])) {
      assert kept[i] in kept;
    }
  }

  /** `ids` is the stored user whitelist for the kept entries: the `absint()`
      of each entry of `sorted`, a rearrangement of `kept` ordered by the
      users' display names. */
  predicate WhitelistOf(userField: string -> Option<string>, kept: seq<string>, sorted: seq<string>, ids: seq<nat>) {
    && multiset(sorted) == multiset(kept)
    && (forall i, j :: 0 <= i < j < |sorted| ==> KeyLe(SortKey(userField, sorted[i]), SortKey(userField, sorted[j])))
    && |ids| == |sorted|
    && (forall i :: 0 <= i < |sorted| ==> ids[i] == AbsIntStr(sorted[i]))
  }

  /** The value stored for one submitted field of the term. */
  function FieldValue(env: SaveEnv, termPrefix: string, key: string, v: PostValue): (r: Value)
    ensures v.PText? ==> r == Text(env.sanitizeText(v.s))
    ensures v.PList? && key == termPrefix + "user_whitelist" ==>
      r.Ids? && |r.ids| == |DropEmptyStrings(v.items)|
      && (exists sorted :: WhitelistOf(env.userField, DropEmptyStrings(v.items), sorted, r.ids))
      && forall i :: 0 <= i < |r.ids| ==> SubmittedId(v.items, r.ids[i])
    ensures v.PList? && key != termPrefix + "user_whitelist" ==>
      r.Texts? && |r.items| == |DropEmptyStrings(v.items)|
      && (forall i :: 0 <= i < |r.items| ==> r.items[i] == env.sanitizeText(DropEmptyStrings(v.items)[i]))
      && forall i :: 0 <= i < |r.items| ==> SubmittedText(v.items, env.sanitizeText, r.items[i])
  {
    match v
    case PText(s) => Text(env.sanitizeText(s))
    case PList(items) =>
      var kept := DropEmptyStrings(items);
      if key == termPrefix + "user_whitelist" then
        var sorted := SortUserIds(kept, env.userField, "ASC");
        PermutationMembers(kept, sorted);
        IdsFromSubmitted(items, sorted);
        var ids := AbsInts(sorted);
        assert WhitelistOf(env.userField, kept, sorted, ids);
        Ids(ids)
      else
        TextsFromSubmitted(items, kept, env.sanitizeText);
        Texts(MapText(kept, env.sanitizeText))
  }

  /** Every non-empty submitted user id ends up in the stored whitelist. */
  lemma WhitelistKeepsSubmitted(env: SaveEnv, termPrefix: string, items: seq<string>, u: string)
    requires u in items && !IsEmptyString(u)
    ensures var r := FieldValue(env, termPrefix, termPrefix + "user_whitelist", PList(items));
            r.Ids? && AbsIntStr(u) in r.ids
  {
    var r := FieldValue(env, termPrefix, termPrefix + "user_whitelist", PList(items));
    var kept := DropEmptyStrings(items);
    var sorted :| WhitelistOf(env.userField, kept, sorted, r.ids);
    assert u in kept;
    assert u in multiset(sorted);
    var i :| 0 <= i < |sorted| && sorted[i] == u;
    assert r.ids[i] == AbsIntStr(u);
  }

  /** The save path runs only for a configured taxonomy and a non-empty POST. */
  predicate SaveApplies(cfg: Config, taxonomy: string, post: Post) {
    taxonomy in cfg.taxonomies && |post| > 0
  }

  /** The POST entries written: exactly those whose key starts with the term prefix. */
  function Written(cfg: Config, env: SaveEnv, termId: nat, taxonomy: string, post: Post): map<string, Value>
  {
    var pre := TermPrefix(cfg.prefix, termId, taxonomy);
    map k | k in post && pre <= k :: FieldValue(env, pre, k, post[k])
  }

  /** Stores the written fields, then, when `active` was among them, the
      updated index. */
  function StoreFields(options: Options, written: map<string, Value>, index: string, activeKey: string, termId: nat): (r: Options)
    ensures forall k :: k !in written && k != index ==> (k in r <==> k in options) && (k in r ==> r[k] == options[k])
    ensures forall k :: k in written && k != index ==> k in r && r[k] == written[k]
  {
    var stored := options + written;
    if activeKey in written then
      stored[index := Ids(UpdateIndex(ReadIndex(stored, index), termId, written[activeKey]))]
    else stored
  }

  lemma StoreFieldsIdempotent(options: Options, written: map<string, Value>, index: string, activeKey: string, termId: nat)
    requires index !in written
    requires NoDup(ReadIndex(options, index))
    ensures var once := StoreFields(options, written, index, activeKey, termId);
            StoreFields(once, written, index, activeKey, termId) == once
  {
    if activeKey in written {
      StoreFieldsIdempotentActive(options, written, index, activeKey, termId);
    } else {
      UnionAbsorbs(options + written, written);
    }
  }

  /** The case of `StoreFieldsIdempotent` where `active` is written: the
      second index update finds the index the first one left. */
  lemma StoreFieldsIdempotentActive(options: Options, written: map<string, Value>, index: string, activeKey: string, termId: nat)
    requires index !in written && activeKey in written
    requires NoDup(ReadIndex(options, index))
    ensures var once := StoreFields(options, written, index, activeKey, termId);
            StoreFields(once, written, index, activeKey, termId) == once
  {
    var once := StoreFields(options, written, index, activeKey, termId);
    var after := UpdateIndex(ReadIndex(options, index), termId, written[activeKey]);
    StoreFieldsActive(options, written, index, activeKey, termId);
    StoreFieldsActive(once, written, index, activeKey, termId);
    assert once[index] == Ids(after);
    UpdateIndexIdempotent(ReadIndex(options, index), termId, written[activeKey]);
    UnionAbsorbs(once, written);
    UpdateSame(once, index, Ids(after));
  }

  /** With `active` written, the index is updated from the one read before the save. */
  lemma StoreFieldsActive(options: Options, written: map<string, Value>, index: string, activeKey: string, termId: nat)
    requires index !in written && activeKey in written
    ensures StoreFields(options, written, index, activeKey, termId)
            == (options + written)[index := Ids(UpdateIndex(ReadIndex(options, index), termId, written[activeKey]))]
  {
    assert ReadIndex(options + written, index) == ReadIndex(options, index);
  }

  lemma UpdateSame(m: Options, k: string, v: Value)
    requires k in m && m[k] == v
    ensures m[k := v] == m
  {
  }

  lemma UnionAbsorbs(m: Options, w: map<string, Value>)
    requires forall k :: k in w ==> k in m && m[k] == w[k]
    ensures m + w == m
  {
  }

  /** `save_custom_term_fields()` on the `edit_term` hook. */
  function SaveCustomTermFields(cfg: Config, env: SaveEnv, options: Options, termId: nat, taxonomy: string, post: Post): (r: Options)
    ensures !SaveApplies(cfg, taxonomy, post) ==> r == options
    ensures forall k :: k !in Written(cfg, env, termId, taxonomy, post) && k != IndexName(cfg.prefix, taxonomy) ==>
      (k in r <==> k in options) && (k in r ==> r[k] == options[k])
  {
    if !SaveApplies(cfg, taxonomy, post) then options
    else
      StoreFields(options, Written(cfg, env, termId, taxonomy, post), IndexName(cfg.prefix, taxonomy),
                  TermPrefix(cfg.prefix, termId, taxonomy) + "active", termId)
  }

  lemma IndexNotWritten(cfg: Config, env: SaveEnv, termId: nat, taxonomy: string, post: Post)
    ensures IndexName(cfg.prefix, taxonomy) !in Written(cfg, env, termId, taxonomy, post)
  {
    forall k | k in Written(cfg, env, termId, taxonomy, post) ensures k != IndexName(cfg.prefix, taxonomy) {
      IndexNameIsNoField(cfg.prefix, termId, taxonomy, k);
    }
  }

  /** Every entry under the term prefix is stored as its sanitized value; the
      index is updated iff `active` was submitted. */
  lemma SaveWritesTermFields(cfg: Config, env: SaveEnv, options: Options, termId: nat, taxonomy: string, post: Post)
    requires SaveApplies(cfg, taxonomy, post)
    ensures var r := SaveCustomTermFields(cfg, env, options, termId, taxonomy, post);
            var pre := TermPrefix(cfg.prefix, termId, taxonomy);
            && (forall k :: k in post && pre <= k ==> k in r && r[k] == FieldValue(env, pre, k, post[k]))
            && (forall k :: k in post && !(pre <= k) && k != IndexName(cfg.prefix, taxonomy) ==>
                  (k in r <==> k in options) && (k in r ==> r[k] == options[k]))
            && (pre + "active" !in post && IndexName(cfg.prefix, taxonomy) in options ==>
                  r[IndexName(cfg.prefix, taxonomy)] == options[IndexName(cfg.prefix, taxonomy)])
  {
    var pre := TermPrefix(cfg.prefix, termId, taxonomy);
    forall k | k in post && pre <= k ensures k != IndexName(cfg.prefix, taxonomy) {
      IndexNameIsNoField(cfg.prefix, termId, taxonomy, k);
    }
  }

  /** After a save that submits `active`, the index option holds the updated
      index; with `active = 'yes'` it is strictly ascending, free of falsy
      entries and holds the term exactly once. */
  lemma SaveUpdatesIndex(cfg: Config, env: SaveEnv, options: Options, termId: nat, taxonomy: string, post: Post)
    requires SaveApplies(cfg, taxonomy, post)
    requires TermPrefix(cfg.prefix, termId, taxonomy) + "active" in post
    ensures var r := SaveCustomTermFields(cfg, env, options, termId, taxonomy, post);
            var index := IndexName(cfg.prefix, taxonomy);
            var pre := TermPrefix(cfg.prefix, termId, taxonomy);
            var active := FieldValue(env, pre, pre + "active", post[pre + "active"]);
            && index in r && r[index].Ids?
            && r[index].ids == UpdateIndex(ReadIndex(options, index), termId, active)
            && (active == Text("yes") ==>
                  StrictlyAscending(r[index].ids) && 0 !in r[index].ids
                  && (termId > 0 ==> multiset(r[index].ids)[termId] == 1))
            && (active != Text("yes") ==>
                  Ascending(r[index].ids)
                  && multiset(r[index].ids) == multiset(ReadIndex(options, index)) - multiset{termId})
  {
    var pre := TermPrefix(cfg.prefix, termId, taxonomy);
    var index := IndexName(cfg.prefix, taxonomy);
    var written := Written(cfg, env, termId, taxonomy, post);
    assert pre <= pre + "active";
    assert index !in written by {
      forall k | k in written ensures k != index {
        IndexNameIsNoField(cfg.prefix, termId, taxonomy, k);
      }
    }
    assert ReadIndex(options + written, index) == ReadIndex(options, index);
    var active := FieldValue(env, pre, pre + "active", post[pre + "active"]);
    if active == Text("yes") && termId > 0 {
      ActivateOnce(ReadIndex(options, index), termId);
    }
  }

  /** Submitting the same form twice stores what submitting it once stored,
      provided the index held no duplicate before. */
  lemma SaveIdempotent(cfg: Config, env: SaveEnv, options: Options, termId: nat, taxonomy: string, post: Post)
    requires NoDup(ReadIndex(options, IndexName(cfg.prefix, taxonomy)))
    ensures var once := SaveCustomTermFields(cfg, env, options, termId, taxonomy, post);
            SaveCustomTermFields(cfg, env, once, termId, taxonomy, post) == once
  {
    if SaveApplies(cfg, taxonomy, post) {
      IndexNotWritten(cfg, env, termId, taxonomy, post);
      StoreFieldsIdempotent(options, Written(cfg, env, termId, taxonomy, post), IndexName(cfg.prefix, taxonomy),
                            TermPrefix(cfg.prefix, termId, taxonomy) + "active", termId);
    }
  }

  /** A saved password reads back through `get_tax_term_option()` as the
      sanitized submission. */
  lemma SaveThenReadPassword(cfg: Config, env: SaveEnv, options: Options, termId: nat, taxonomy: string, post: Post, pass: string)
    requires SaveApplies(cfg, taxonomy, post)
    requires TermPrefix(cfg.prefix, termId, taxonomy) + "pass" in post
    requires post[TermPrefix(cfg.prefix, termId, taxonomy) + "pass"] == PText(pass)
    ensures var r := SaveCustomTermFields(cfg, env, options, termId, taxonomy, post);
            GetTaxTermOption(r, cfg.prefix, termId, taxonomy, "pass") == Some(Text(env.sanitizeText(pass)))
  {
    SanitizeKeyOfKey("pass");
    OptionNameHasTermPrefix(cfg.prefix, termId, taxonomy, "pass");
    SaveWritesTermFields(cfg, env, options, termId, taxonomy, post);
  }
}

=== FILE: wrappers.dfy ===
/** The optional-value datatype used wherever PHP returns `false`/`null`
    for "absent". */
module Wrappers {

  datatype Option<+T> = None | Some(value: T)
}
